=== FILE: README.md ===
# Static file server: the per-request decisions

This project models, in Dafny, how the static file server
(`static-server.js` with its MIME table `mime.js`) answers one request
once the request path has been resolved to a file-system path. The model
covers these decisions:

- routing a missing path, a directory or a file (`routeHandler`,
  `respondNotFound`, `respondRedirect`);
- the caching headers and the conditional-GET test (`generateETag`,
  `setFreshHeaders`, `isFresh`);
- the choice between 304, 200, 206 and 416 (`respond`,
  `responseNotModified`, `responseFile`);
- reading a `Range` header (`getRange`, `rangeHandler`);
- choosing a content coding (`compressHandler`);
- the Content-Type lookup (`lookup` in `mime.js`).

All of it is pure functions over immutable values:

- A response is a status, a map of lower-cased header names to values, a
  body and a coding.
- A body is one of: nothing, the whole file, an inclusive byte slice, an
  HTML page, or error text.
- How a request ends is an `Outcome`: either a response, or one of the
  uncaught exceptions the code can raise inside its `fs.stat` callback.

Modules, one per concern:

- `Wrappers`: the `Option` type.
- `Text`: what the server does to strings:
  - decimal and hexadecimal rendering (`Number.prototype.toString`) and
    reading them back;
  - `parseInt` on digit strings;
  - `indexOf` and `lastIndexOf`;
  - the whole-word test of a regular expression `\bword\b`.
- `Http`: the shared values. These are headers, response, file snapshot,
  configuration and outcome.
- `Mime`:
  - the table;
  - Node's POSIX `path.extname`;
  - `split('.').pop()`;
  - the lookup.
- `Freshness`: validators, caching headers and `isFresh`.
- `Ranges`:
  - the regular expression `bytes=([0-9]*)-([0-9]*)`, searched leftmost;
  - `getRange`;
  - the 416/206 decision of `rangeHandler`;
  - the two Content-Range forms and how to read them back.
- `Compression`: coding negotiation.
- `Pipeline`: `respond` and `responseFile`.
- `Router`: `routeHandler`.

Two behaviours of the code a reader might not expect, both modelled as
written:

- **Range bounds.** A range is rejected only when its start or end exceeds
  the file size, or its start exceeds its end. So an end equal to the size
  is accepted. A suffix longer than the file gives a negative start, which
  is also accepted.
- **Unknown extensions.** They do not fall back to a `text/plain` type. The
  fallback key `txt` is missing from the table, so the lookup yields
  `undefined`, and `setHeader` rejects that value.

Three steps of the code as written end every request that reaches them in
an uncaught exception. The first two are listed under Findings:

- the coding step uses `zlib`, which is never required;
- a failed stat passes the Error object itself to `res.end`, which accepts
  only a string or a buffer;
- the router calls `respondDirectory` with three arguments, while it is
  declared with four, so `path.join` is handed the request object. This
  step lies outside the model (see "## Left out").

`Pipeline.Respond` and the members it is built from model the server with
both steps corrected: `zlib` bound, and the error's text written.
`Pipeline.RespondAsWritten` models the code as written and is proved to
differ from the corrected pipeline in exactly those two places.

## Model

| member | source | states |
|---|---|---|
| Text.Hex | static-server.js:51-52 | `toString(16)` of a size is a non-empty string of lower-case hex digits in shortest form: no leading zero unless the number is 0 |
| Text.Decimal | static-server.js:165 | the decimal text of a number in Content-Range is a non-empty digit string in shortest form: no leading zero unless the number is 0 |
| Text.HexRoundTrip | static-server.js:51-52 | reading the hex text back gives the number |
| Text.SignedHexRoundTrip | static-server.js:51 | a modification time, negative ones included, is recovered from its `toString(16)` text |
| Text.DecimalRoundTrip | static-server.js:165 | the decimal text of a number in Content-Range reads back as that number |
| Text.ParseInt | static-server.js:142-143 | `parseInt` of a group is a number exactly when the group starts with a digit; otherwise it is NaN (None) |
| Text.DigitRun | static-server.js:141 | a greedy `[0-9]*` consumes the maximal run of digits and stops at a non-digit or the end |
| Text.SearchWord | static-server.js:129-134 | the search finds a whole-word occurrence iff one exists at or after the start position |
| Mime.TableEntries | mime.js:3-14 | each of the ten entries maps to its type; the keys are case-sensitive (`HTML` is absent); `txt` and the empty key are absent |
| Mime.ExtName | mime.js:17 | `path.extname` is empty, or a dot followed by a text without dots or slashes |
| Mime.LastPiece | mime.js:18 | `split(sep).pop()` is the suffix after the last separator, or the whole string when there is none |
| Mime.Lookup | mime.js:16-20 | a type is found iff the last piece of the extension is a table key; the `txt` fallback never supplies one |
| Mime.FallbackMissing | mime.js:19 | the fallback `mimeType['txt']` is undefined |
| Mime.LookupInTable | mime.js:16-20 | any type returned is one of the table's values |
| Mime.LookupNamedFile | mime.js:16-20 | `dir/stem.ext` is looked up under `ext` alone, even when the stem has dots (`a.min.css` gives the css type); a trailing dot gives the empty key |
| Mime.LookupWithoutDot | mime.js:16-20 | a last segment without a dot has no type, even inside a directory named like `dir.css/` |
| Mime.LookupLeadingDot | mime.js:16-20 | a last segment whose only dot comes first (`.css`) has no type |
| Mime.NoExtensionNoType | mime.js:17-19 | an empty extension yields undefined |
| Mime.BaseNameAfterDir | mime.js:17 | `path.extname` works on the last segment after the final slash |
| Freshness.GenerateETag | static-server.js:50-54 | the validator has the weak form `W/"…"` |
| Freshness.ETagRoundTrip | static-server.js:50-54 | size and modification time are recovered from the validator |
| Freshness.ETagInjective | static-server.js:50-54 | equal validators imply equal size and equal modification time |
| Freshness.SetFreshHeaders | static-server.js:61-77 | Expires, Cache-Control, Last-Modified and ETag are each set, to their values, iff their switch is on; every other header is unchanged |
| Freshness.FreshHeadersOnEmpty | static-server.js:61-77 | on a fresh response exactly the switched-on caching headers are present |
| Freshness.IsFresh | static-server.js:85-92 | fresh iff at least one of If-None-Match and If-Modified-Since is sent, and each one sent equals the response's ETag or Last-Modified respectively |
| Freshness.ETagOffMeansStale | static-server.js:74-89 | with ETag off, any If-None-Match makes the request stale |
| Freshness.MatchingETagIsFresh | static-server.js:85-92 | the current validator alone makes the request fresh |
| Freshness.ChangedFileIsStale | static-server.js:50-92 | a validator of a version with another size or modification time never makes the request fresh |
| Freshness.ModifiedSinceIsStringEquality | static-server.js:90 | If-Modified-Since alone is fresh iff it equals the Last-Modified text exactly |
| Ranges.MatchAt | static-server.js:141 | a match at a position spells `bytes=`, digits, `-`, digits there |
| Ranges.GroupOneIsForced | static-server.js:141 | backtracking cannot shorten group 1: the only match at a position takes the whole digit run before the `-` |
| Ranges.FirstMatch | static-server.js:141 | the match used is the leftmost one; there is none iff no position matches |
| Ranges.GetRange | static-server.js:140-154 | the header is unparsable iff no position matches; otherwise both bounds are numbers or both are NaN |
| Ranges.Resolve | static-server.js:144-149 | with both numbers, both are kept; with only the second n (a suffix), the range is size - n to size - 1; with only the first a, it is a to size - 1; with neither, both bounds stay NaN |
| Ranges.GetRangeAtStart | static-server.js:140-154 | a header that starts with a match resolves that match's groups |
| Ranges.MatchAtStart | static-server.js:141 | a header starting with `bytes=A-B` followed by a non-digit matches at 0 with groups A and B |
| Ranges.GetRangeClosed | static-server.js:140-154 | `bytes=a-b` gives start a and end b, whatever follows it (a second range after a comma is ignored) |
| Ranges.GetRangeSuffix | static-server.js:144-146 | `bytes=-n` gives start size - n and end size - 1 |
| Ranges.GetRangeOpen | static-server.js:147-149 | `bytes=a-` gives start a and end size - 1 |
| Ranges.GetRangeNoNumbers | static-server.js:142-153 | `bytes=-` leaves both bounds NaN |
| Ranges.GetRangeWithoutUnit | static-server.js:141-142 | a header without `bytes=` is unparsable |
| Ranges.RangeHandler | static-server.js:156-168 | malformed iff unparsable; 416 only when a numeric bound exceeds the size or start exceeds end; a 206 keeps the bounds of `getRange`, and numeric 206 bounds satisfy start <= end <= size |
| Ranges.ClosedRangeDecision | static-server.js:156-168 | `bytes=a-b` is served iff a <= b <= size, so an end equal to the size is accepted |
| Ranges.SuffixRangeDecision | static-server.js:144-168 | `bytes=-n` is 416 iff n = 0; otherwise it is served from size - n, which is negative when n exceeds the size |
| Ranges.OpenRangeDecision | static-server.js:147-168 | `bytes=a-` is served iff a < size |
| Ranges.EmptyRangeDecision | static-server.js:156-168 | `bytes=-` is served as 206 with NaN bounds, since no comparison with NaN holds |
| Ranges.ContentRangeRoundTrip | static-server.js:165 | the 206 Content-Range text `bytes a-b/size` reads back as a, b and the size |
| Ranges.UnsatisfiedRangeRoundTrip | static-server.js:160 | the 416 Content-Range text `bytes */size` reads back as the size |
| Ranges.ParseSpanOfDigits | static-server.js:165 | `A-B/S` with digit runs reads back as the three numbers |
| Compression.Negotiate | static-server.js:127-138 | no coding iff neither gzip nor deflate is offered as a whole word; gzip iff gzip is offered; deflate iff deflate is offered without gzip |
| Compression.CompressHandler | static-server.js:127-138 | the corrected handler: the coding is the negotiated one; Content-Encoding names it iff one is chosen; status, body and all other headers are unchanged |
| Compression.CompressHandlerAsWritten | static-server.js:127-138 | as written, the response is returned unchanged iff no coding is chosen; otherwise `zlib` is unbound and the request throws |
| Compression.BrowserDefaultNegotiatesGzip | static-server.js:129-133 | `gzip, deflate, br` chooses gzip, and as written that request throws |
| Compression.DeflateAlone | static-server.js:134-136 | `deflate` alone chooses deflate |
| Compression.HyphenIsBoundary | static-server.js:129-131 | `x-gzip` offers gzip, since `-` is a word boundary |
| Compression.PartOfWordIsNotOffered | static-server.js:129 | `gzipped` offers no coding |
| Pipeline.MaybeCompress | static-server.js:180-182 | corrected coding step: a coding is applied only on a compressible path and is the negotiated one; status, body and every header but Content-Encoding are kept; a coded response names its coding in Content-Encoding; an uncoded one keeps its headers exactly, and no other header is ever added |
| Pipeline.Typed | static-server.js:172-173 | Content-Type and Accept-Ranges are set; no other header is added, removed or changed |
| Pipeline.RangeStep | static-server.js:156-182 | with the corrected coding step: a Range header ends in a throw iff it is malformed, in 416 iff `RangeHandler` finds it unsatisfiable (empty body, Content-Range `bytes */size`), and otherwise in 206 with the slice as body and its `bytes start-end/size` Content-Range; only a 206 may be coded, with the negotiated coding named in Content-Encoding; an uncoded reply has Content-Encoding iff the input headers had it; every other header is kept, and none but Content-Range and Content-Encoding is added |
| Pipeline.ResponseFile | static-server.js:170-184 | with the corrected coding step: it throws iff the type is unknown or the range is malformed; otherwise 200 iff there is no Range header, else 206 or 416; no 416 is coded; a coded reply names its coding in Content-Encoding, and an uncoded one has Content-Encoding iff the input headers had it; earlier headers survive, and only the four content headers can be added |
| Pipeline.RespondError | static-server.js:40-43 | corrected `respondError`: status 500, no headers, the error's text as the body, no coding |
| Pipeline.ResponseNotModified | static-server.js:122-125 | status 304, the headers set so far unchanged, no body, no coding |
| Pipeline.FreshHeaders | static-server.js:112 | the headers set before the freshness test are caching headers only |
| Pipeline.Respond | static-server.js:109-120 | with both corrections: 500 iff the stat fails; 304 iff the stat succeeds and the request is fresh; a fresh request gets exactly `responseNotModified` on the caching headers, so a 304 has an empty body, only caching headers and no coding; a stale request for a found file gets exactly what `responseFile` gives on the caching headers; every caching header reaches the response; Content-Encoding is present iff a coding is applied, and names it |
| Pipeline.StaleRequestGives200 | static-server.js:109-120 | with the corrected coding step, a stale request for a typed file without Range gets 200 with the whole file, Content-Type and Accept-Ranges, the negotiated coding, and every caching header |
| Pipeline.NotModifiedOmitsContentHeaders | static-server.js:113-125 | a 304 has no Content-Type, Accept-Ranges, Content-Range or Content-Encoding |
| Pipeline.UnconditionalNever304 | static-server.js:88-113 | without If-None-Match and If-Modified-Since the answer is never 304 |
| Pipeline.RevalidationGives304 | static-server.js:109-125 | the current validator alone gives 304 with the caching headers and no body |
| Pipeline.StatFailureGives500 | static-server.js:40-43 | corrected `respondError`: a failed stat is a 500 carrying the error's text |
| Pipeline.TypedFile | static-server.js:172-183 | with the corrected coding step and a known type: it throws iff the range is malformed; every reply carries the type as Content-Type and `bytes` as Accept-Ranges; 200 iff there is no Range header, and with one 416 iff `RangeHandler` finds it unsatisfiable, else 206; no 416 is coded; a coded reply names its coding in Content-Encoding, and an uncoded one has Content-Encoding iff the input headers had it; earlier headers survive, and only the four content headers can be added |
| Pipeline.MaybeCompressCodes | static-server.js:180-182 | corrected coding step: a compressible path gets the negotiated coding announced by Content-Encoding; any other path gets none; on headers without Content-Encoding, the header is present iff a coding is applied |
| Pipeline.WholeFileGives200 | static-server.js:172-183 | with the corrected coding step, without Range: 200, whole file, typed, coded as negotiated |
| Pipeline.SatisfiableRangeGives206 | static-server.js:172-183 | with the corrected coding step, a satisfiable range: 206 with the slice and its Content-Range, typed, coded as negotiated |
| Pipeline.TypedWithRange | static-server.js:165-175 | Content-Range set after Content-Type and Accept-Ranges leaves those two in place |
| Pipeline.PartialKeepsHeaders | static-server.js:180-182 | with the corrected coding step, coding keeps Content-Type, Accept-Ranges and Content-Range and codes as negotiated |
| Pipeline.UnsatisfiableRangeGives416 | static-server.js:158-176 | an unsatisfiable range: 416, empty body, `bytes */size`, typed, uncoded |
| Pipeline.MalformedRangeThrows | static-server.js:141-175 | a Range header without a match throws |
| Pipeline.UnknownTypeThrows | static-server.js:172 | a path without a known type throws at `setHeader` |
| Pipeline.ClosedRangeResponse | static-server.js:156-183 | with the corrected coding step, `bytes=a-b` gives 206 with bytes a..b and `bytes a-b/size` iff a <= b <= size, and 416 otherwise |
| Pipeline.MaybeCompressAsWritten | static-server.js:127-138 | the coding step as written throws exactly when the corrected one would code, and otherwise agrees with it |
| Pipeline.RangeStepAsWritten | static-server.js:156-182 | the range step as written is the corrected one, except that a coded 206 throws |
| Pipeline.ResponseFileAsWritten | static-server.js:170-184 | `responseFile` as written is the corrected one, except that every coded response throws |
| Pipeline.RespondAsWritten | static-server.js:40-184 | `respond` as written: a failed stat throws from `res.end`; on a found file, the outcome is the corrected one with every path compressible, except that every coded response throws |
| Pipeline.GzipRequestThrowsAsWritten | static-server.js:99-183 | as written, a stale request for a typed file without Range that accepts gzip throws |
| Pipeline.AsWrittenAgreesWithoutCoding | static-server.js:109-184 | as written and corrected agree on a found file when the request offers neither coding |
| Router.RespondNotFound | static-server.js:205-210 | 404, Content-Type text/html, an HTML body that contains the requested URL |
| Router.NotFoundNamesTheUrl | static-server.js:209 | different URLs give different 404 pages |
| Router.RespondRedirect | static-server.js:240-247 | 301 with Location equal to the URL plus `/`, Content-Type text/html, a body linking to the Location |
| Router.RedirectNamesTheUrl | static-server.js:240-247 | the redirect is injective in the URL: two URLs with the same redirect are equal |
| Router.RouteHandler | static-server.js:249-265 | 404 iff the stat fails; the directory handler iff a directory is named with its trailing slash; 301 to URL + `/` iff it is named without one; the file pipeline iff the path is not a directory; the 404 is exactly `respondNotFound`'s text/html page and the 301 exactly `respondRedirect`'s |
| Router.DirectoryWithoutSlashRedirects | static-server.js:256-259 | a directory named without its slash is redirected to URL + `/` |
| Router.FileIgnoresSlash | static-server.js:256-261 | a file is served whether or not the URL ends in `/` |

## Left out

- Reading files and writing to the socket are left out: `fs.createReadStream`, `pipe` and `res.end`. A body is described, not produced.
- The compressed bytes are left out: only the choice of coding is modelled.
- The clock is left out. The Expires value (`Date.now() + maxAge * 1000`, with `maxAge` in seconds) and `toUTCString` of the modification time are inputs (`expiresAt`, `mtimeText`).
- `fs.stat` is left out. Its result is an input, as is the second stat that `respond` makes of the same path.
- `shouldCompress` is an input (`compressible`) of the corrected pipeline, standing for a configured pattern. As written it reads `this.zipMatch`, which is never assigned, and `''.match(undefined)` succeeds, so every path counts as compressible; `Pipeline.RespondAsWritten` uses exactly that (`ShouldCompressAsWritten`).
- `utils.hasTrailingSlash` is an input (`trailingSlash`). `utils.js` is not part of this model.
- Resolving the URL to a path (`path.join`, `path.normalize`, `url.parse`) is left out.
- `respondDirectory` is left out: the index-page check and the listing page. The router only sends such requests to the directory handler.
- Router.RouteHandler stops at the `Directory` verdict. As written, every request for a directory named with its trailing slash then ends in an uncaught exception and no listing is sent. The call at static-server.js:257 passes `(pathName, req, res)` to `respondDirectory`, declared at line 212 as `(stat, pathName, req, res)`, so `path.join` at line 213 receives the request object.
- `respondFile` is left out because nothing calls it.
- `isFresh` reads `res._headers`. The model takes it to be the map of headers set so far, with lower-cased names.
- Command-line options, configuration loading, `start` and logging are left out.
- `parseInt` is exact on unbounded integers. Digit strings too long for a double are not rounded as JavaScript would round them.
- A max-age that is not an integer is not modelled. `maxAge` is an `int`, rendered in decimal.
- Inherited object keys (`mimeType['constructor']`) are not modelled. The table lookup sees only the ten own keys.
- `createReadStream` rejecting a negative or NaN offset is left out. The model stops at the decision to send a 206 with those bounds.
- Compression.CompressHandler models the evidently intended coding step rather than the code as written. The code as written is Compression.CompressHandlerAsWritten; see Findings.
- Pipeline.MaybeCompress uses the corrected coding step; as written a chosen coding throws (Pipeline.MaybeCompressAsWritten).
- Pipeline.MaybeCompressCodes is about the corrected coding step; as written a chosen coding throws.
- Pipeline.RangeStep uses the corrected coding step; as written a coded 206 throws (Pipeline.RangeStepAsWritten).
- Pipeline.ResponseFile uses the corrected coding step; as written every coded response throws (Pipeline.ResponseFileAsWritten).
- Pipeline.TypedFile uses the corrected coding step; as written every coded response throws (Pipeline.ResponseFileAsWritten).
- Pipeline.PartialKeepsHeaders is about the corrected coding step; as written coding throws.
- Pipeline.WholeFileGives200 is about the corrected coding step; as written a coded 200 throws (Pipeline.GzipRequestThrowsAsWritten).
- Pipeline.SatisfiableRangeGives206 is about the corrected coding step; as written a coded 206 throws.
- Pipeline.ClosedRangeResponse is about the corrected coding step; as written a coded 206 throws.
- Pipeline.StaleRequestGives200 is about the corrected coding step; as written a coded 200 throws (Pipeline.GzipRequestThrowsAsWritten).
- Pipeline.Respond models the corrected server: a failed stat answers 500 and coded responses are sent. As written both throw (Pipeline.RespondAsWritten).
- Pipeline.RespondError models the corrected `respondError`; as written `res.end(err)` throws, because the Error object is neither a string nor a buffer.
- Pipeline.StatFailureGives500 is about the corrected `respondError`; as written a failed stat throws (Pipeline.RespondAsWritten).

## Findings

| source | as written | input that shows it | evidently intended | confidence | as-written member | corrected member |
|---|---|---|---|---|---|---|
| static-server.js:127-138 | `zlib.createGzip()` and `zlib.createDeflate()` are called, but `zlib` is never required, so choosing a coding throws a ReferenceError inside the `fs.stat` callback | a file request with `Accept-Encoding: gzip, deflate, br` on a compressible path | require `zlib` and wrap the body in the negotiated coding | high, not executed | Compression.CompressHandlerAsWritten | Compression.CompressHandler |
| static-server.js:40-43 | `res.end(err)` is handed the Error object from `fs.stat`; `res.end` accepts only a string, a Buffer or a Uint8Array and throws ERR_INVALID_ARG_TYPE, so a failed stat inside `respond` ends in an uncaught exception instead of a 500 | a request whose path is removed between the router's stat and the one in `respond` | write the error's text, `res.end(String(err))`, after the 500 status | medium (depends on the Node version's argument check), not executed | Pipeline.RespondAsWritten | Pipeline.StatFailureGives500 |

=== FILE: compression.dfy ===
/** Content-coding negotiation (static-server.js, `compressHandler`). */
module Compression {
  import opened Text
  import opened Http

  /** `/\bgzip\b/` (and likewise for deflate) tests the Accept-Encoding
      value for the coding as a whole word.  `/\b(gzip|deflate)\b/` matches
      exactly when one of the two does. */
  predicate Offers(req: Headers, coding: string) {
    Truthy(req, "accept-encoding") && HasWord(req["accept-encoding"], coding)
  }

  /** The coding chosen: none when Accept-Encoding is missing, empty or names
      neither coding; gzip whenever it is named, even beside deflate; deflate
      only without gzip. */
  function Negotiate(req: Headers): (e: Encoding)
    ensures e == Identity <==> !Offers(req, "gzip") && !Offers(req, "deflate")
    ensures e == Gzip <==> Offers(req, "gzip")
    ensures e == Deflate <==> !Offers(req, "gzip") && Offers(req, "deflate")
  {
    var accept := if "accept-encoding" in req then req["accept-encoding"] else "";
    if accept == "" || !(HasWord(accept, "gzip") || HasWord(accept, "deflate")) then Identity
    else if HasWord(accept, "gzip") then Gzip
    else Deflate
  }

  /** The Content-Encoding value announcing a coding */
  function CodingName(e: Encoding): string {
    match e
    case Identity => "identity"
    case Gzip => "gzip"
    case Deflate => "deflate"
  }

  /** `compressHandler` as intended: the body is wrapped in the negotiated
      coding, and Content-Encoding is set exactly when a coding is chosen.
      Status, body and every other header stay as they were. */
  function CompressHandler(r: Response, req: Headers): (out: Response)
    requires r.encoding == Identity
    ensures out.status == r.status && out.body == r.body
    ensures out.encoding == Negotiate(req)
    ensures out.encoding != Identity ==>
      "content-encoding" in out.headers && out.headers["content-encoding"] == CodingName(out.encoding)
    ensures out.encoding == Identity ==> out.headers == r.headers
    ensures forall k :: k != "content-encoding" ==>
      (k in out.headers <==> k in r.headers) && (k in r.headers ==> out.headers[k] == r.headers[k])
  {
    var e := Negotiate(req);
    if e == Identity then r
    else r.(headers := r.headers["content-encoding" := CodingName(e)], encoding := e)
  }

  /** `compressHandler` as written: `zlib` is never required by the file, so
      a chosen coding ends in a ReferenceError (after Content-Encoding was
      set); only the pass-through branch completes. */
  function CompressHandlerAsWritten(r: Response, req: Headers): (o: Outcome)
    requires r.encoding == Identity
    ensures o.Reply? <==> Negotiate(req) == Identity
    ensures o.Reply? ==> o.response == r
  {
    if Negotiate(req) == Identity then Reply(r) else Thrown(ZlibUnbound)
  }

  /** A browser's usual "gzip, deflate, br" selects gzip; as written this
      request throws instead of being answered. */
  lemma BrowserDefaultNegotiatesGzip(r: Response, req: Headers)
    requires r.encoding == Identity
    requires "accept-encoding" in req && req["accept-encoding"] == "gzip, deflate, br"
    ensures Negotiate(req) == Gzip
    ensures CompressHandler(r, req).headers["content-encoding"] == "gzip"
    ensures CompressHandlerAsWritten(r, req) == Thrown(ZlibUnbound)
  {
    var s := req["accept-encoding"];
    assert WordMatchAt(s, "gzip", 0) by {
      assert s[0..4] == "gzip";
    }
  }

  /** Deflate is chosen when it is the only coding named */
  lemma DeflateAlone(req: Headers)
    requires "accept-encoding" in req && req["accept-encoding"] == "deflate"
    ensures Negotiate(req) == Deflate
  {
    var s := req["accept-encoding"];
    assert WordMatchAt(s, "deflate", 0) by {
      assert s[0..7] == "deflate";
    }
  }

  /** A '-' counts as a word boundary: "x-gzip" offers gzip */
  lemma HyphenIsBoundary(req: Headers)
    requires "accept-encoding" in req && req["accept-encoding"] == "x-gzip"
    ensures Negotiate(req) == Gzip
  {
    var s := req["accept-encoding"];
    assert WordMatchAt(s, "gzip", 2) by {
      assert s[2..6] == "gzip";
    }
  }

  /** "gzip" inside a longer word is not a whole word: "gzipped" offers no
      coding */
  lemma PartOfWordIsNotOffered(req: Headers)
    requires "accept-encoding" in req && req["accept-encoding"] == "gzipped"
    ensures Negotiate(req) == Identity
  {
    var s := req["accept-encoding"];
    forall i | 0 <= i <= |s|
      ensures !WordMatchAt(s, "gzip", i)
    {
      if i == 0 {
        assert !IsBoundary(s, 4);
      } else if IsSliceAt(s, "gzip", i) {
        assert s[i..i + 4][0] == 'g';
      }
    }
  }
}

=== FILE: freshness.dfy ===
/** Cache validators and the conditional-GET test (static-server.js,
    `generateETag`, `setFreshHeaders`, `isFresh`). */
module Freshness {
  import opened Wrappers
  import opened Text
  import opened Http

  /** The weak validator `W/"<size in hex>-<mtime in hex>"`.  It is built
      from metadata only, so two files of equal size and modification time
      share it. */
  function GenerateETag(stat: FileStat): (tag: string)
    ensures |tag| >= 6 && tag[..3] == "W/\"" && tag[|tag| - 1] == '"'
  {
    "W/\"" + Hex(stat.size) + "-" + SignedHex(stat.mtimeMs) + "\""
  }

  /** Reads a validator of the shape GenerateETag writes back into its size
      and modification time; None for any other string. */
  function ParseETag(tag: string): (r: Option<(nat, int)>)
  {
    if |tag| >= 4 && tag[..3] == "W/\"" && tag[|tag| - 1] == '"' then
      var inner := tag[3..|tag| - 1];
      match IndexOf(inner, '-')
      case None => None
      case Some(k) =>
        var sizeText := inner[..k];
        if |sizeText| > 0 && AllHexDigits(sizeText) then
          match ParseSignedHex(inner[k + 1..])
          case None => None
          case Some(m) => Some((HexValue(sizeText), m))
        else None
    else None
  }

  /** Size and modification time can be read back from the validator: the
      size is written in hex digits, which contain no '-', so the first '-'
      separates the two numbers even when the time is negative. */
  lemma ETagRoundTrip(stat: FileStat)
    ensures ParseETag(GenerateETag(stat)) == Some((stat.size, stat.mtimeMs))
  {
    var tag := GenerateETag(stat);
    var h := Hex(stat.size);
    var m := SignedHex(stat.mtimeMs);
    var inner := tag[3..|tag| - 1];
    assert inner == h + ['-'] + m;
    assert '-' !in h by {
      forall i | 0 <= i < |h|
        ensures h[i] != '-'
      {
        assert IsHexDigit(h[i]);
      }
    }
    IndexOfAfter(h, '-', m);
    assert inner[..|h|] == h;
    assert inner[|h| + 1..] == m;
    HexRoundTrip(stat.size);
    SignedHexRoundTrip(stat.mtimeMs);
  }

  /** Distinct (size, modification time) pairs give distinct validators */
  lemma ETagInjective(a: FileStat, b: FileStat)
    requires GenerateETag(a) == GenerateETag(b)
    ensures a.size == b.size && a.mtimeMs == b.mtimeMs
  {
    ETagRoundTrip(a);
    ETagRoundTrip(b);
  }

  /** The Cache-Control value for a max-age in seconds */
  function CacheControl(maxAge: int): string {
    "public, max-age=" + SignedDecimal(maxAge)
  }

  /** Header k of r is v when the switch is on; otherwise r agrees with h
      on k. */
  predicate Emits(h: Headers, r: Headers, k: string, on: bool, v: string) {
    if on then k in r && r[k] == v
    else (k in r <==> k in h) && (k in h ==> r[k] == h[k])
  }

  /** Header k is the same in h and r */
  predicate Kept(h: Headers, r: Headers, k: string) {
    (k in r <==> k in h) && (k in h ==> r[k] == h[k])
  }

  const FreshHeaderNames: set<string> := {"expires", "cache-control", "last-modified", "etag"}

  /** Adds the caching headers the configuration switches on, each
      independently, to the headers h of the response.  `expiresAt` is the
      rendered time max-age seconds from now, which the clock supplies. */
  function SetFreshHeaders(cfg: Config, stat: FileStat, expiresAt: string, h: Headers): (r: Headers)
    ensures Emits(h, r, "expires", cfg.expires, expiresAt)
    ensures Emits(h, r, "cache-control", cfg.cacheControl, CacheControl(cfg.maxAge))
    ensures Emits(h, r, "last-modified", cfg.lastModified, stat.mtimeText)
    ensures Emits(h, r, "etag", cfg.eTag, GenerateETag(stat))
    ensures forall k :: k !in FreshHeaderNames ==> Kept(h, r, k)
  {
    var h1 := if cfg.expires then h["expires" := expiresAt] else h;
    var h2 := if cfg.cacheControl then h1["cache-control" := CacheControl(cfg.maxAge)] else h1;
    var h3 := if cfg.lastModified then h2["last-modified" := stat.mtimeText] else h2;
    if cfg.eTag then h3["etag" := GenerateETag(stat)] else h3
  }

  /** On a response that had no headers yet, each caching header is present
      exactly when its switch is on, and nothing else is present. */
  lemma FreshHeadersOnEmpty(cfg: Config, stat: FileStat, expiresAt: string)
    ensures var r := SetFreshHeaders(cfg, stat, expiresAt, map[]);
      && ("expires" in r <==> cfg.expires)
      && ("cache-control" in r <==> cfg.cacheControl)
      && ("last-modified" in r <==> cfg.lastModified)
      && ("etag" in r <==> cfg.eTag)
      && r.Keys <= FreshHeaderNames
  {
  }

  /** A request condition named q holds against the response header k: it
      is absent (or empty), or it equals the response's header exactly. */
  predicate ConditionHolds(req: Headers, q: string, res: Headers, k: string) {
    Truthy(req, q) ==> k in res && res[k] == req[q]
  }

  /** The conditional-GET test.  A request without If-None-Match and
      If-Modified-Since is never fresh; otherwise each one present must
      equal the response's ETag, respectively Last-Modified, as a string. */
  function IsFresh(req: Headers, res: Headers): (r: bool)
    ensures r <==> (
      && (Truthy(req, "if-none-match") || Truthy(req, "if-modified-since"))
      && ConditionHolds(req, "if-none-match", res, "etag")
      && ConditionHolds(req, "if-modified-since", res, "last-modified"))
  {
    var noneMatch := Truthy(req, "if-none-match");
    var modifiedSince := Truthy(req, "if-modified-since");
    if !(noneMatch || modifiedSince) then false
    else if noneMatch && !("etag" in res && req["if-none-match"] == res["etag"]) then false
    else if modifiedSince && !("last-modified" in res && req["if-modified-since"] == res["last-modified"]) then false
    else true
  }

  /** With ETag switched off, any If-None-Match makes the request stale */
  lemma ETagOffMeansStale(cfg: Config, stat: FileStat, expiresAt: string, req: Headers)
    requires !cfg.eTag && Truthy(req, "if-none-match")
    ensures !IsFresh(req, SetFreshHeaders(cfg, stat, expiresAt, map[]))
  {
    FreshHeadersOnEmpty(cfg, stat, expiresAt);
  }

  /** A request that repeats the validator of the current file, and sends
      no If-Modified-Since, is fresh */
  lemma MatchingETagIsFresh(cfg: Config, stat: FileStat, expiresAt: string, req: Headers)
    requires cfg.eTag
    requires "if-none-match" in req && req["if-none-match"] == GenerateETag(stat)
    requires !Truthy(req, "if-modified-since")
    ensures IsFresh(req, SetFreshHeaders(cfg, stat, expiresAt, map[]))
  {
  }

  /** A validator taken from an earlier version of the file whose size or
      modification time differs from the current one never makes the request
      fresh. */
  lemma ChangedFileIsStale(cfg: Config, earlier: FileStat, stat: FileStat, expiresAt: string, req: Headers)
    requires earlier.size != stat.size || earlier.mtimeMs != stat.mtimeMs
    requires "if-none-match" in req && req["if-none-match"] == GenerateETag(earlier)
    ensures !IsFresh(req, SetFreshHeaders(cfg, stat, expiresAt, map[]))
  {
    var res := SetFreshHeaders(cfg, stat, expiresAt, map[]);
    if IsFresh(req, res) {
      FreshHeadersOnEmpty(cfg, stat, expiresAt);
      ETagInjective(earlier, stat);
    }
  }

  /** If-Modified-Since is compared as text: a different rendering of the
      same or a later time is not fresh, only the exact Last-Modified string
      is. */
  lemma ModifiedSinceIsStringEquality(cfg: Config, stat: FileStat, expiresAt: string, req: Headers)
    requires cfg.lastModified && !Truthy(req, "if-none-match")
    requires Truthy(req, "if-modified-since")
    ensures IsFresh(req, SetFreshHeaders(cfg, stat, expiresAt, map[]))
      <==> req["if-modified-since"] == stat.mtimeText
  {
  }
}

=== FILE: http.dfy ===
/** The values one request handler works on: the request headers, the
    response being assembled, the file metadata snapshot taken by `fs.stat`,
    and the server configuration. */
module Http {
  import opened Wrappers

  /** Header maps are keyed by lower-case names: Node lower-cases incoming
      request header names, and `res.setHeader` files response headers under
      the lower-cased name that `res._headers` is read with. */
  type Headers = map<string, string>

  /** A header is used by the server only when JavaScript finds it truthy:
      present and not the empty string. */
  predicate Truthy(h: Headers, name: string) {
    name in h && h[name] != ""
  }

  /** What the response body will carry.  `Slice` is an inclusive byte range
      of the file; a bound is None where the server computed NaN. */
  datatype Body =
    | Empty
    | Whole
    | Slice(first: Option<int>, last: Option<int>)
    | Html(text: string)
    | ErrorText(text: string)

  /** The content coding wrapped around the body stream */
  datatype Encoding = Identity | Gzip | Deflate

  datatype Response = Response(status: int, headers: Headers, body: Body, encoding: Encoding)

  /** The snapshot `fs.stat` gives: size in bytes, modification time in
      milliseconds since the epoch, the same time rendered by
      `Date.prototype.toUTCString`, and the directory flag. */
  datatype FileStat = FileStat(size: nat, mtimeMs: int, mtimeText: string, isDirectory: bool)

  /** The result of an `fs.stat` call */
  datatype StatResult = StatFailed(reason: string) | Found(stat: FileStat)

  /** The caching switches and the max-age (in seconds) of the server */
  datatype Config = Config(
    cacheControl: bool,
    expires: bool,
    eTag: bool,
    lastModified: bool,
    maxAge: int)

  /** The uncaught exceptions a request can end in */
  datatype Fault =
    | RangeNotMatched       // `getRange` reads a group of a null match
    | UndefinedContentType  // `setHeader('Content-Type', undefined)` rejects the value
    | ZlibUnbound           // `zlib` is referenced but never required
    | EndRejectsError       // `res.end` is handed an Error object, not a string or buffer

  /** How handling a request ends: a response, or an exception thrown inside
      the `fs.stat` callback */
  datatype Outcome = Reply(response: Response) | Thrown(fault: Fault)
}

=== FILE: mime.dfy ===
/** MIME type lookup by file extension (mime.js). */
module Mime {
  import opened Wrappers
  import opened Text

  /** The fixed extension table.  It has no entry for "txt", the key the
      lookup falls back to. */
  const Table: map<string, string> := map[
    "html" := "text/html; charset=UTF-8",
    "js" := "text/javascript; charset=UTF-8",
    "css" := "text/css; charset=UTF-8",
    "xml" := "text/xml",
    "png" := "text/png",
    "json" := "text/json",
    "jpg" := "text/jpg",
    "gif" := "image/gif",
    "ico" := "image/x-icon",
    "jpeg" := "image/jpeg"
  ]

  /** The fallback key used when the extension is not in the table */
  const Fallback: string := "txt"

  /** The path with its trailing slashes removed */
  function TrimTrailingSlashes(p: string): (r: string)
    ensures |r| <= |p| && r == p[..|r|]
    ensures r == [] || r[|r| - 1] != '/'
    ensures forall i :: |r| <= i < |p| ==> p[i] == '/'
  {
    if |p| > 0 && p[|p| - 1] == '/' then TrimTrailingSlashes(p[..|p| - 1]) else p
  }

  /** The final path segment, ignoring trailing slashes */
  function BaseName(p: string): (seg: string)
    ensures '/' !in seg
  {
    var t := TrimTrailingSlashes(p);
    match LastIndexOf(t, '/')
    case None => t
    case Some(i) => t[i + 1..]
  }

  /** Node's POSIX `path.extname`: from the last dot of the final segment to
      its end, or "" when the segment has no dot, starts with its last dot,
      or is "..". */
  function ExtName(p: string): (e: string)
    ensures e == [] || (e[0] == '.' && '.' !in e[1..] && '/' !in e)
  {
    var seg := BaseName(p);
    match LastIndexOf(seg, '.')
    case None => ""
    case Some(i) =>
      if i == 0 || seg == ".." then ""
      else
        assert seg[i..][1..] == seg[i + 1..];
        seg[i..]
  }

  /** `s.split(sep).pop()`: the text after the last separator, or all of s */
  function LastPiece(s: string, sep: char): (r: string)
    ensures sep !in r
    ensures |r| <= |s| && r == s[|s| - |r|..]
    ensures sep in s ==> |r| < |s| && s[|s| - |r| - 1] == sep
  {
    match LastIndexOf(s, sep)
    case None => s
    case Some(i) => s[i + 1..]
  }

  /** The key the table is consulted with */
  function Key(p: string): string {
    LastPiece(ExtName(p), '.')
  }

  /** `mimeType[ext] || mimeType['txt']`: None stands for undefined */
  function Lookup(p: string): (r: Option<string>)
    ensures r.Some? <==> Key(p) in Table
    ensures r == Get(Key(p))
  {
    match Get(Key(p))
    case Some(t) => Some(t)
    case None =>
      FallbackMissing();
      Get(Fallback)
  }

  lemma FallbackMissing()
    ensures Get(Fallback) == None
  {
  }

  /** Whatever type the lookup returns is one of the table's values */
  lemma LookupInTable(p: string)
    ensures Lookup(p).Some? ==> Lookup(p).value in Table.Values
  {
    if Lookup(p).Some? {
      assert Table[Key(p)] in Table.Values;
    }
  }

  /** `mimeType[k]`, with None for undefined */
  function Get(k: string): Option<string> {
    if k in Table then Some(Table[k]) else None
  }

  /** The final segment of `dir` + `seg`, where dir is empty or ends in a
      slash and seg is a non-empty name without slashes, is seg. */
  lemma BaseNameAfterDir(dir: string, seg: string)
    requires dir == [] || dir[|dir| - 1] == '/'
    requires seg != [] && '/' !in seg
    ensures BaseName(dir + seg) == seg
  {
    var p := dir + seg;
    assert p[|p| - 1] == seg[|seg| - 1];
    assert TrimTrailingSlashes(p) == p;
    if dir == [] {
      assert p == seg;
    } else {
      var pre := dir[..|dir| - 1];
      assert p == pre + ['/'] + seg;
      LastIndexOfBefore(pre, '/', seg);
    }
  }

  /** A path `dir` + `stem` + "." + `ext`, where dir is empty or ends in a
      slash, the stem is a non-empty file-name part (possibly containing
      dots) and ext has neither dot nor slash, has extension "." + ext and is
      looked up under ext. */
  lemma LookupNamedFile(dir: string, stem: string, ext: string)
    requires dir == [] || dir[|dir| - 1] == '/'
    requires stem != [] && '/' !in stem
    requires '/' !in ext && '.' !in ext
    requires !(stem == "." && ext == [])
    ensures ExtName(dir + stem + "." + ext) == "." + ext
    ensures Key(dir + stem + "." + ext) == ext
    ensures Lookup(dir + stem + "." + ext) == Get(ext)
  {
    var seg := stem + ['.'] + ext;
    var p := dir + stem + "." + ext;
    assert p == dir + seg;
    BaseNameAfterDir(dir, seg);
    ExtNameOfSegment(stem, ext);
    assert ExtName(p) == "." + ext;
    LastPieceOfExtension(ext);
  }

  lemma ExtNameOfSegment(stem: string, ext: string)
    requires stem != []
    requires '.' !in ext
    requires !(stem == "." && ext == [])
    ensures var seg := stem + ['.'] + ext;
      LastIndexOf(seg, '.') == Some(|stem|) && seg != ".." && seg[|stem|..] == "." + ext
  {
    var seg := stem + ['.'] + ext;
    LastIndexOfBefore(stem, '.', ext);
    assert seg[|stem|..] == "." + ext;
    assert seg != ".." by {
      if |stem| == 1 && ext == [] {
        assert stem == [stem[0]] && seg[0] == stem[0];
      }
    }
  }

  /** Splitting an extension at its dot leaves the part after it */
  lemma LastPieceOfExtension(ext: string)
    requires '.' !in ext
    ensures LastPiece("." + ext, '.') == ext
  {
    var e := "." + ext;
    assert e == [] + ['.'] + ext;
    LastIndexOfBefore([], '.', ext);
    assert e[1..] == ext;
  }

  /** No extension means no type: the empty key is not in the table and
      neither is the fallback */
  lemma NoExtensionNoType(p: string)
    requires ExtName(p) == ""
    ensures Lookup(p) == None
  {
    assert LastPiece("", '.') == "";
    assert Get("") == None;
  }

  /** A final segment without a dot has no extension, so no type */
  lemma LookupWithoutDot(dir: string, name: string)
    requires dir == [] || dir[|dir| - 1] == '/'
    requires name != [] && '/' !in name && '.' !in name
    ensures ExtName(dir + name) == ""
    ensures Lookup(dir + name) == None
  {
    BaseNameAfterDir(dir, name);
    assert LastIndexOf(name, '.') == None;
    NoExtensionNoType(dir + name);
  }

  /** A final segment whose only dot is its first character (".css") has no
      extension, so no type */
  lemma LookupLeadingDot(dir: string, name: string)
    requires dir == [] || dir[|dir| - 1] == '/'
    requires '/' !in name && '.' !in name
    ensures ExtName(dir + "." + name) == ""
    ensures Lookup(dir + "." + name) == None
  {
    var seg := [] + ['.'] + name;
    var p := dir + "." + name;
    assert p == dir + seg;
    BaseNameAfterDir(dir, seg);
    LastIndexOfBefore([], '.', name);
    NoExtensionNoType(p);
  }

  /** The table's entries, its case-sensitivity, and the keys it lacks */
  lemma TableEntries()
    ensures Get("html") == Some("text/html; charset=UTF-8")
    ensures Get("js") == Some("text/javascript; charset=UTF-8")
    ensures Get("css") == Some("text/css; charset=UTF-8")
    ensures Get("xml") == Some("text/xml")
    ensures Get("png") == Some("text/png")
    ensures Get("json") == Some("text/json")
    ensures Get("jpg") == Some("text/jpg")
    ensures Get("gif") == Some("image/gif")
    ensures Get("ico") == Some("image/x-icon")
    ensures Get("jpeg") == Some("image/jpeg")
    ensures Get("HTML") == None && Get("txt") == None && Get("") == None
  {
  }
}

=== FILE: pipeline.dfy ===
/** The per-file response pipeline (static-server.js, `respond`,
    `responseNotModified`, `responseFile`): caching headers and the freshness
    test first, then the content headers, then the byte range, then the
    content coding. */
module Pipeline {
  import opened Wrappers
  import opened Text
  import opened Http
  import Mime
  import opened Freshness
  import opened Ranges
  import opened Compression

  /** `respondError` as intended: 500 with the error's text as the body.
      As written `res.end` is handed the Error object itself, which Node
      rejects (see RespondAsWritten). */
  function RespondError(reason: string): (r: Response)
    ensures r.status == 500 && r.headers == map[] && r.encoding == Identity
    ensures r.body.ErrorText? && r.body.text == reason
  {
    Response(500, map[], ErrorText(reason), Identity)
  }

  /** `responseNotModified`: 304 with the headers set so far and no body */
  function ResponseNotModified(h: Headers): (r: Response)
    ensures r.status == 304 && r.headers == h && r.body == Empty && r.encoding == Identity
  {
    Response(304, h, Empty, Identity)
  }

  /** The coding step, applied only to compressible paths */
  function MaybeCompress(r: Response, req: Headers, compressible: bool): (out: Response)
    requires r.encoding == Identity
    ensures out.status == r.status && out.body == r.body
    ensures out.encoding != Identity ==> compressible && out.encoding == Negotiate(req)
    ensures out.encoding != Identity ==>
      "content-encoding" in out.headers && out.headers["content-encoding"] == CodingName(out.encoding)
    ensures out.encoding == Identity ==> out.headers == r.headers
    ensures out.headers.Keys <= r.headers.Keys + {"content-encoding"}
    ensures forall k :: k in r.headers && k != "content-encoding" ==>
      k in out.headers && out.headers[k] == r.headers[k]
  {
    if compressible then CompressHandler(r, req) else r
  }

  /** The headers `responseFile` itself may set */
  const ContentHeaderNames: set<string> :=
    {"content-type", "accept-ranges", "content-range", "content-encoding"}

  /** The headers the range step and the coding step may set */
  const RangeHeaderNames: set<string> := {"content-range", "content-encoding"}

  /** Content-Encoding is present exactly when a coding is applied, and
      names that coding */
  predicate EncodingAnnounced(r: Response) {
    && ("content-encoding" in r.headers <==> r.encoding != Identity)
    && (r.encoding != Identity ==> r.headers["content-encoding"] == CodingName(r.encoding))
  }

  /** h2 keeps every header of h1 outside `names` */
  ghost predicate KeepsOutside(h1: Headers, h2: Headers, names: set<string>) {
    forall k :: k in h1 && k !in names ==> k in h2 && h2[k] == h1[k]
  }

  /** The range step of `responseFile` on headers h that already carry the
      content headers */
  function RangeStep(size: nat, req: Headers, h: Headers, compressible: bool): (o: Outcome)
    requires Truthy(req, "range")
    ensures o.Thrown? <==> RangeHandler(req["range"], size).Malformed?
    ensures o.Reply? ==> o.response.status in {206, 416} && KeepsOutside(h, o.response.headers, RangeHeaderNames)
    ensures o.Reply? ==> (o.response.status == 416 <==> RangeHandler(req["range"], size).Unsatisfiable?)
    ensures o.Reply? && o.response.status == 416 ==>
      && o.response.body == Empty
      && "content-range" in o.response.headers && o.response.headers["content-range"] == UnsatisfiedRange(size)
    ensures RangeHandler(req["range"], size).Satisfiable? ==>
      var d := RangeHandler(req["range"], size);
      && o.Reply? && o.response.body == Slice(d.start, d.end)
      && "content-range" in o.response.headers
      && o.response.headers["content-range"] == ContentRange(d.start, d.end, size)
    ensures o.Reply? ==> o.response.headers.Keys <= h.Keys + RangeHeaderNames
    ensures o.Reply? && o.response.encoding == Identity ==>
      ("content-encoding" in o.response.headers <==> "content-encoding" in h)
    ensures o.Reply? && o.response.encoding != Identity ==>
      && compressible && o.response.status == 206 && o.response.encoding == Negotiate(req)
      && "content-encoding" in o.response.headers
      && o.response.headers["content-encoding"] == CodingName(o.response.encoding)
  {
    match RangeHandler(req["range"], size)
    case Malformed => Thrown(RangeNotMatched)
    case Unsatisfiable =>
      Reply(Response(416, h["content-range" := UnsatisfiedRange(size)], Empty, Identity))
    case Satisfiable(start, end) =>
      var partial := Response(206, h["content-range" := ContentRange(start, end, size)], Slice(start, end), Identity);
      Reply(MaybeCompress(partial, req, compressible))
  }

  /** Content-Type and Accept-Ranges added to h */
  function Typed(h: Headers, contentType: string): (h1: Headers)
    ensures "content-type" in h1 && h1["content-type"] == contentType
    ensures "accept-ranges" in h1 && h1["accept-ranges"] == "bytes"
    ensures h1.Keys == h.Keys + {"content-type", "accept-ranges"}
    ensures forall k :: k in h && k !in {"content-type", "accept-ranges"} ==> h1[k] == h[k]
    ensures KeepsOutside(h, h1, ContentHeaderNames)
    ensures ("content-encoding" in h1 <==> "content-encoding" in h)
  {
    h["content-type" := contentType]["accept-ranges" := "bytes"]
  }

  /** `responseFile`: Content-Type and Accept-Ranges, then either a range
      (416 ends the request, 206 continues) or the whole file (200), then
      the coding of whatever body continues.  An unknown type throws, since
      the lookup's undefined is handed to `setHeader`. */
  function ResponseFile(stat: FileStat, path: string, req: Headers, h: Headers, compressible: bool): (o: Outcome)
    ensures o.Thrown? <==> (Mime.Lookup(path).None? ||
      (Truthy(req, "range") && RangeHandler(req["range"], stat.size).Malformed?))
    ensures o.Reply? ==> o.response.status in {200, 206, 416}
    ensures o.Reply? ==> (o.response.status == 200 <==> !Truthy(req, "range"))
    ensures o.Reply? ==> KeepsOutside(h, o.response.headers, ContentHeaderNames)
    ensures o.Reply? ==> o.response.headers.Keys <= h.Keys + ContentHeaderNames
    ensures o.Reply? && o.response.encoding == Identity ==>
      ("content-encoding" in o.response.headers <==> "content-encoding" in h)
    ensures o.Reply? && o.response.encoding != Identity ==>
      && compressible && o.response.status != 416 && o.response.encoding == Negotiate(req)
      && "content-encoding" in o.response.headers
      && o.response.headers["content-encoding"] == CodingName(o.response.encoding)
  {
    match Mime.Lookup(path)
    case None => Thrown(UndefinedContentType)
    case Some(contentType) => TypedFile(stat, contentType, req, h, compressible)
  }

  /** `responseFile` once the type is known: the range step or the whole
      file, on the typed headers */
  function TypedFile(stat: FileStat, contentType: string, req: Headers, h: Headers, compressible: bool): (o: Outcome)
    ensures o.Thrown? <==> Truthy(req, "range") && RangeHandler(req["range"], stat.size).Malformed?
    ensures o.Reply? ==> o.response.status in {200, 206, 416}
    ensures o.Reply? ==> (o.response.status == 200 <==> !Truthy(req, "range"))
    ensures o.Reply? && Truthy(req, "range") ==>
      (o.response.status == 416 <==> RangeHandler(req["range"], stat.size).Unsatisfiable?)
    ensures o.Reply? ==> HasContentHeaders(o.response, contentType)
    ensures o.Reply? ==> KeepsOutside(h, o.response.headers, ContentHeaderNames)
    ensures o.Reply? ==> o.response.headers.Keys <= h.Keys + ContentHeaderNames
    ensures o.Reply? && o.response.encoding == Identity ==>
      ("content-encoding" in o.response.headers <==> "content-encoding" in h)
    ensures o.Reply? && o.response.encoding != Identity ==>
      && compressible && o.response.status != 416 && o.response.encoding == Negotiate(req)
      && "content-encoding" in o.response.headers
      && o.response.headers["content-encoding"] == CodingName(o.response.encoding)
  {
    var h1 := Typed(h, contentType);
    if Truthy(req, "range") then
      RangeStepKeepsTyping(stat.size, req, h, contentType, compressible);
      RangeStep(stat.size, req, h1, compressible)
    else
      WholeKeepsTyping(req, h, contentType, compressible);
      Reply(MaybeCompress(Response(200, h1, Whole, Identity), req, compressible))
  }

  /** The range step keeps the typing and every earlier header outside the
      content headers */
  lemma RangeStepKeepsTyping(size: nat, req: Headers, h: Headers, t: string, compressible: bool)
    requires Truthy(req, "range")
    ensures var o := RangeStep(size, req, Typed(h, t), compressible);
      o.Reply? ==> HasContentHeaders(o.response, t) && KeepsOutside(h, o.response.headers, ContentHeaderNames)
  {
    assert "content-type" !in RangeHeaderNames && "accept-ranges" !in RangeHeaderNames;
  }

  /** The coding step keeps the typing of a whole file and every earlier
      header outside the content headers */
  lemma WholeKeepsTyping(req: Headers, h: Headers, t: string, compressible: bool)
    ensures var r := MaybeCompress(Response(200, Typed(h, t), Whole, Identity), req, compressible);
      HasContentHeaders(r, t) && KeepsOutside(h, r.headers, ContentHeaderNames)
  {
  }

  /** The caching headers of a response that had none yet */
  function FreshHeaders(cfg: Config, stat: FileStat, expiresAt: string): (h: Headers)
    ensures h.Keys <= FreshHeaderNames
  {
    FreshHeadersOnEmpty(cfg, stat, expiresAt);
    SetFreshHeaders(cfg, stat, expiresAt, map[])
  }

  /** `respond`: stat the file (500 on failure), set the caching headers,
      answer 304 to a fresh request and run `responseFile` otherwise.
      `expiresAt` is the clock's rendering of now + max-age; `compressible`
      is the verdict of `shouldCompress` on the path. */
  function Respond(cfg: Config, s: StatResult, path: string, req: Headers, expiresAt: string, compressible: bool): (o: Outcome)
    ensures o.Reply? ==> o.response.status in {200, 206, 304, 416, 500}
    ensures o.Reply? && o.response.status == 500 <==> s.StatFailed?
    ensures o.Reply? && o.response.status == 304 <==>
      s.Found? && IsFresh(req, FreshHeaders(cfg, s.stat, expiresAt))
    ensures o.Reply? && o.response.status == 304 ==>
      o.response.body == Empty && o.response.headers.Keys <= FreshHeaderNames
    ensures s.Found? && o.Reply? ==>
      KeepsOutside(FreshHeaders(cfg, s.stat, expiresAt), o.response.headers, {})
    ensures s.Found? && IsFresh(req, FreshHeaders(cfg, s.stat, expiresAt)) ==>
      o == Reply(ResponseNotModified(FreshHeaders(cfg, s.stat, expiresAt)))
    ensures s.Found? && !IsFresh(req, FreshHeaders(cfg, s.stat, expiresAt)) ==>
      o == ResponseFile(s.stat, path, req, FreshHeaders(cfg, s.stat, expiresAt), compressible)
    ensures o.Reply? ==> EncodingAnnounced(o.response)
  {
    match s
    case StatFailed(reason) => Reply(RespondError(reason))
    case Found(stat) =>
      var h := FreshHeaders(cfg, stat, expiresAt);
      if IsFresh(req, h) then Reply(ResponseNotModified(h))
      else
        assert FreshHeaderNames !! ContentHeaderNames;
        ResponseFile(stat, path, req, h, compressible)
  }

  /** A stale request for a typed file without Range is served whole with
      200: the caching headers, then the content headers, then the coding
      as negotiated. */
  lemma StaleRequestGives200(cfg: Config, stat: FileStat, path: string, req: Headers, expiresAt: string, compressible: bool)
    requires Mime.Lookup(path).Some? && !Truthy(req, "range")
    requires !IsFresh(req, FreshHeaders(cfg, stat, expiresAt))
    ensures var o := Respond(cfg, Found(stat), path, req, expiresAt, compressible);
      && o.Reply? && o.response.status == 200 && o.response.body == Whole
      && HasContentHeaders(o.response, Mime.Lookup(path).value)
      && CodedAsNegotiated(o.response, req, compressible)
      && KeepsOutside(FreshHeaders(cfg, stat, expiresAt), o.response.headers, {})
  {
    WholeFileGives200(stat, path, req, FreshHeaders(cfg, stat, expiresAt), compressible);
  }

  /** A 304 carries only caching headers: no Content-Type, no Accept-Ranges,
      no Content-Range and no Content-Encoding. */
  lemma NotModifiedOmitsContentHeaders(cfg: Config, s: StatResult, path: string, req: Headers, expiresAt: string, compressible: bool)
    requires Respond(cfg, s, path, req, expiresAt, compressible).Reply?
    requires Respond(cfg, s, path, req, expiresAt, compressible).response.status == 304
    ensures var h := Respond(cfg, s, path, req, expiresAt, compressible).response.headers;
      forall k :: k in ContentHeaderNames ==> k !in h
  {
    assert FreshHeaderNames !! ContentHeaderNames;
  }

  /** A request with neither If-None-Match nor If-Modified-Since is never
      answered 304, whatever the configuration. */
  lemma UnconditionalNever304(cfg: Config, s: StatResult, path: string, req: Headers, expiresAt: string, compressible: bool)
    requires !Truthy(req, "if-none-match") && !Truthy(req, "if-modified-since")
    ensures var o := Respond(cfg, s, path, req, expiresAt, compressible);
      o.Reply? ==> o.response.status != 304
  {
  }

  /** Revalidating with the current validator gives 304 with exactly the
      caching headers and no body. */
  lemma RevalidationGives304(cfg: Config, stat: FileStat, path: string, req: Headers, expiresAt: string, compressible: bool)
    requires cfg.eTag
    requires "if-none-match" in req && req["if-none-match"] == GenerateETag(stat)
    requires !Truthy(req, "if-modified-since")
    ensures Respond(cfg, Found(stat), path, req, expiresAt, compressible)
      == Reply(Response(304, FreshHeaders(cfg, stat, expiresAt), Empty, Identity))
  {
    MatchingETagIsFresh(cfg, stat, expiresAt, req);
  }

  /** A failed stat is a 500 carrying the error */
  lemma StatFailureGives500(cfg: Config, reason: string, path: string, req: Headers, expiresAt: string, compressible: bool)
    ensures Respond(cfg, StatFailed(reason), path, req, expiresAt, compressible)
      == Reply(Response(500, map[], ErrorText(reason), Identity))
  {
  }

  /** The response headers `responseFile` sets before looking at the range */
  predicate HasContentHeaders(r: Response, contentType: string) {
    && "content-type" in r.headers && r.headers["content-type"] == contentType
    && "accept-ranges" in r.headers && r.headers["accept-ranges"] == "bytes"
  }

  /** The coding of a response that continues: the negotiated one on a
      compressible path, none otherwise, announced by Content-Encoding */
  predicate CodedAsNegotiated(r: Response, req: Headers, compressible: bool) {
    && r.encoding == (if compressible then Negotiate(req) else Identity)
    && (r.encoding != Identity ==>
          "content-encoding" in r.headers && r.headers["content-encoding"] == CodingName(r.encoding))
  }

  /** Without a Range header the whole file is sent with 200, typed, and
      coded as negotiated. */
  lemma WholeFileGives200(stat: FileStat, path: string, req: Headers, h: Headers, compressible: bool)
    requires Mime.Lookup(path).Some?
    requires !Truthy(req, "range")
    ensures var o := ResponseFile(stat, path, req, h, compressible);
      && o.Reply? && o.response.status == 200 && o.response.body == Whole
      && HasContentHeaders(o.response, Mime.Lookup(path).value)
      && CodedAsNegotiated(o.response, req, compressible)
  {
    var h1 := Typed(h, Mime.Lookup(path).value);
    ResponseFileTyped(stat, path, req, h, compressible);
    MaybeCompressCodes(Response(200, h1, Whole, Identity), req, compressible);
  }

  /** MaybeCompress codes as negotiated on a compressible path and leaves
      the response alone otherwise */
  lemma MaybeCompressCodes(r: Response, req: Headers, compressible: bool)
    requires r.encoding == Identity
    ensures CodedAsNegotiated(MaybeCompress(r, req, compressible), req, compressible)
    ensures "content-encoding" !in r.headers ==> EncodingAnnounced(MaybeCompress(r, req, compressible))
  {
  }

  /** Once the type is known, `responseFile` is the range step or the
      whole-file step on the typed headers */
  lemma ResponseFileTyped(stat: FileStat, path: string, req: Headers, h: Headers, compressible: bool)
    requires Mime.Lookup(path).Some?
    ensures var h1 := Typed(h, Mime.Lookup(path).value);
      ResponseFile(stat, path, req, h, compressible) ==
        if Truthy(req, "range") then RangeStep(stat.size, req, h1, compressible)
        else Reply(MaybeCompress(Response(200, h1, Whole, Identity), req, compressible))
  {
  }

  /** The 206 branch of the range step */
  lemma RangeStepSatisfiable(size: nat, req: Headers, h: Headers, compressible: bool)
    requires Truthy(req, "range") && RangeHandler(req["range"], size).Satisfiable?
    ensures var d := RangeHandler(req["range"], size);
      RangeStep(size, req, h, compressible) == Reply(MaybeCompress(
        Response(206, h["content-range" := ContentRange(d.start, d.end, size)], Slice(d.start, d.end), Identity),
        req, compressible))
  {
  }

  /** The 416 branch of the range step */
  lemma RangeStepUnsatisfiable(size: nat, req: Headers, h: Headers, compressible: bool)
    requires Truthy(req, "range") && RangeHandler(req["range"], size).Unsatisfiable?
    ensures RangeStep(size, req, h, compressible)
      == Reply(Response(416, h["content-range" := UnsatisfiedRange(size)], Empty, Identity))
  {
  }

  /** A satisfiable range gives 206 with the range as body and in
      Content-Range; the partial body is then coded like a whole one. */
  lemma SatisfiableRangeGives206(stat: FileStat, path: string, req: Headers, h: Headers, compressible: bool)
    requires Mime.Lookup(path).Some?
    requires Truthy(req, "range") && RangeHandler(req["range"], stat.size).Satisfiable?
    ensures var d := RangeHandler(req["range"], stat.size);
      var o := ResponseFile(stat, path, req, h, compressible);
      && o.Reply? && o.response.status == 206 && o.response.body == Slice(d.start, d.end)
      && "content-range" in o.response.headers
      && o.response.headers["content-range"] == ContentRange(d.start, d.end, stat.size)
      && HasContentHeaders(o.response, Mime.Lookup(path).value)
      && CodedAsNegotiated(o.response, req, compressible)
  {
    var d := RangeHandler(req["range"], stat.size);
    var t := Mime.Lookup(path).value;
    var h1 := Typed(h, t);
    var v := ContentRange(d.start, d.end, stat.size);
    var partial := Response(206, h1["content-range" := v], Slice(d.start, d.end), Identity);
    ResponseFileTyped(stat, path, req, h, compressible);
    RangeStepSatisfiable(stat.size, req, h1, compressible);
    TypedWithRange(h, t, v, Slice(d.start, d.end));
    PartialKeepsHeaders(partial, req, compressible, t, v);
  }

  /** Content-Range added after the typing keeps the typing */
  lemma TypedWithRange(h: Headers, t: string, v: string, b: Body)
    ensures var r := Response(206, Typed(h, t)["content-range" := v], b, Identity);
      HasContentHeaders(r, t) && "content-range" in r.headers && r.headers["content-range"] == v
  {
    var h1 := Typed(h, t);
    assert h1["content-range" := v]["content-type"] == t;
    assert h1["content-range" := v]["accept-ranges"] == "bytes";
  }

  /** The coding step keeps Content-Type, Accept-Ranges and Content-Range */
  lemma PartialKeepsHeaders(r: Response, req: Headers, compressible: bool, t: string, v: string)
    requires r.encoding == Identity && HasContentHeaders(r, t)
    requires "content-range" in r.headers && r.headers["content-range"] == v
    ensures var out := MaybeCompress(r, req, compressible);
      && HasContentHeaders(out, t) && "content-range" in out.headers && out.headers["content-range"] == v
      && CodedAsNegotiated(out, req, compressible)
  {
    MaybeCompressCodes(r, req, compressible);
  }

  /** An unsatisfiable range ends the request with 416, an empty body, the
      size in Content-Range, and no coding. */
  lemma UnsatisfiableRangeGives416(stat: FileStat, path: string, req: Headers, h: Headers, compressible: bool)
    requires Mime.Lookup(path).Some?
    requires Truthy(req, "range") && RangeHandler(req["range"], stat.size).Unsatisfiable?
    ensures var o := ResponseFile(stat, path, req, h, compressible);
      && o.Reply? && o.response.status == 416 && o.response.body == Empty
      && "content-range" in o.response.headers
      && o.response.headers["content-range"] == UnsatisfiedRange(stat.size)
      && HasContentHeaders(o.response, Mime.Lookup(path).value)
      && o.response.encoding == Identity
      && ("content-encoding" in o.response.headers <==> "content-encoding" in h)
  {
    var h1 := Typed(h, Mime.Lookup(path).value);
    ResponseFileTyped(stat, path, req, h, compressible);
    RangeStepUnsatisfiable(stat.size, req, h1, compressible);
  }

  /** A Range header without "bytes=<digits>-<digits>" anywhere throws from
      `getRange` */
  lemma MalformedRangeThrows(stat: FileStat, path: string, req: Headers, h: Headers, compressible: bool)
    requires Mime.Lookup(path).Some?
    requires Truthy(req, "range") && RangeHandler(req["range"], stat.size).Malformed?
    ensures ResponseFile(stat, path, req, h, compressible) == Thrown(RangeNotMatched)
  {
  }

  /** A path without a known type throws before any range or coding is
      looked at */
  lemma UnknownTypeThrows(stat: FileStat, path: string, req: Headers, h: Headers, compressible: bool)
    requires Mime.Lookup(path).None?
    ensures ResponseFile(stat, path, req, h, compressible) == Thrown(UndefinedContentType)
  {
  }

  /** "bytes=a-b" inside the file gives 206 "bytes a-b/size" with bytes a..b;
      outside it (or reversed) gives 416. */
  lemma ClosedRangeResponse(stat: FileStat, path: string, req: Headers, h: Headers, compressible: bool, a: nat, b: nat)
    requires Mime.Lookup(path).Some?
    requires "range" in req && req["range"] == "bytes=" + Decimal(a) + "-" + Decimal(b)
    ensures var o := ResponseFile(stat, path, req, h, compressible);
      && o.Reply?
      && (o.response.status == 206 <==> a <= b <= stat.size)
      && (o.response.status == 206 ==> (
            && o.response.body == Slice(Some(a), Some(b))
            && "content-range" in o.response.headers
            && o.response.headers["content-range"] == ContentRange(Some(a), Some(b), stat.size)))
      && (o.response.status != 206 ==> o.response.status == 416)
  {
    var text := "bytes=" + Decimal(a) + "-" + Decimal(b);
    assert text == "bytes=" + Decimal(a) + "-" + Decimal(b) + [];
    ClosedRangeDecision(a, b, [], stat.size);
    if a <= b <= stat.size {
      SatisfiableRangeGives206(stat, path, req, h, compressible);
    } else {
      UnsatisfiableRangeGives416(stat, path, req, h, compressible);
    }
  }

  // ---------------------------------------------------------------------
  // The server as written.  Two steps differ from the pipeline above:
  // the coding step reaches `zlib`, which is never required, and a failed
  // stat hands the Error object itself to `res.end`, which accepts only a
  // string or a buffer.  Both end in an exception thrown inside the
  // `fs.stat` callback.

  /** An outcome of the pipeline above, as the code as written ends it: a
      response that would be coded throws instead. */
  function CodingThrows(o: Outcome): Outcome {
    if o.Reply? && o.response.encoding != Identity then Thrown(ZlibUnbound) else o
  }

  /** The coding step as written */
  function MaybeCompressAsWritten(r: Response, req: Headers, compressible: bool): (o: Outcome)
    requires r.encoding == Identity
    ensures o == CodingThrows(Reply(MaybeCompress(r, req, compressible)))
  {
    if compressible then CompressHandlerAsWritten(r, req) else Reply(r)
  }

  /** The range step as written */
  function RangeStepAsWritten(size: nat, req: Headers, h: Headers, compressible: bool): (o: Outcome)
    requires Truthy(req, "range")
    ensures o == CodingThrows(RangeStep(size, req, h, compressible))
  {
    match RangeHandler(req["range"], size)
    case Malformed => Thrown(RangeNotMatched)
    case Unsatisfiable =>
      Reply(Response(416, h["content-range" := UnsatisfiedRange(size)], Empty, Identity))
    case Satisfiable(start, end) =>
      var partial := Response(206, h["content-range" := ContentRange(start, end, size)], Slice(start, end), Identity);
      MaybeCompressAsWritten(partial, req, compressible)
  }

  /** `responseFile` as written: whatever the corrected version would code
      throws instead */
  function ResponseFileAsWritten(stat: FileStat, path: string, req: Headers, h: Headers, compressible: bool): (o: Outcome)
    ensures o == CodingThrows(ResponseFile(stat, path, req, h, compressible))
  {
    match Mime.Lookup(path)
    case None => Thrown(UndefinedContentType)
    case Some(contentType) =>
      var h1 := Typed(h, contentType);
      if Truthy(req, "range") then RangeStepAsWritten(stat.size, req, h1, compressible)
      else MaybeCompressAsWritten(Response(200, h1, Whole, Identity), req, compressible)
  }

  /** `shouldCompress` as written: `this.zipMatch` is never assigned, and
      matching against an undefined pattern matches the empty string, so
      every path counts as compressible. */
  const ShouldCompressAsWritten: bool := true

  /** `respond` as written: a failed stat throws from `res.end`, and every
      response the corrected pipeline would code throws from the coding
      step; every other outcome is the corrected one. */
  function RespondAsWritten(cfg: Config, s: StatResult, path: string, req: Headers, expiresAt: string): (o: Outcome)
    ensures s.StatFailed? ==> o == Thrown(EndRejectsError)
    ensures s.Found? ==> o == CodingThrows(Respond(cfg, s, path, req, expiresAt, ShouldCompressAsWritten))
  {
    match s
    case StatFailed(_) => Thrown(EndRejectsError)
    case Found(stat) =>
      var h := FreshHeaders(cfg, stat, expiresAt);
      if IsFresh(req, h) then Reply(ResponseNotModified(h))
      else ResponseFileAsWritten(stat, path, req, h, ShouldCompressAsWritten)
  }

  /** As written, a stale request for a typed file without Range, from a
      client that accepts gzip, is never answered: the coding step throws. */
  lemma GzipRequestThrowsAsWritten(cfg: Config, stat: FileStat, path: string, req: Headers, expiresAt: string)
    requires Mime.Lookup(path).Some? && !Truthy(req, "range")
    requires !IsFresh(req, FreshHeaders(cfg, stat, expiresAt))
    requires Offers(req, "gzip")
    ensures RespondAsWritten(cfg, Found(stat), path, req, expiresAt) == Thrown(ZlibUnbound)
  {
    WholeFileGives200(stat, path, req, FreshHeaders(cfg, stat, expiresAt), ShouldCompressAsWritten);
  }

  /** As written and as corrected agree on every found file whose request
      offers neither coding. */
  lemma AsWrittenAgreesWithoutCoding(cfg: Config, stat: FileStat, path: string, req: Headers, expiresAt: string)
    requires !Offers(req, "gzip") && !Offers(req, "deflate")
    ensures RespondAsWritten(cfg, Found(stat), path, req, expiresAt)
      == Respond(cfg, Found(stat), path, req, expiresAt, ShouldCompressAsWritten)
  {
  }
}

=== FILE: ranges.dfy ===
/** Byte-range requests (static-server.js, `getRange` and `rangeHandler`). */
module Ranges {
  import opened Wrappers
  import opened Text

  /** The two groups captured by `/bytes=([0-9]*)-([0-9]*)/` */
  datatype Groups = Groups(first: string, second: string)

  /** The regular expression tried at position i.  Group 1 is greedy and
      must be followed by '-'; giving back digits cannot help, since the
      character after a shorter run is a digit, so the only candidate is the
      full digit run (see GroupOneIsForced).  Group 2 is greedy with nothing
      after it, so it is the full digit run after the '-'. */
  function MatchAt(s: string, i: nat): (m: Option<Groups>)
    ensures m.Some? ==> AllDigits(m.value.first) && AllDigits(m.value.second)
    ensures m.Some? ==> IsSliceAt(s, "bytes=" + m.value.first + "-" + m.value.second, i)
  {
    if IsSliceAt(s, "bytes=", i) then
      var g1 := DigitRun(s, i + 6);
      var j := i + 6 + |g1|;
      if j < |s| && s[j] == '-' then
        var g2 := DigitRun(s, j + 1);
        assert IsSliceAt(s, "bytes=" + g1 + "-" + g2, i) by {
          assert IsSliceAt(s, g1, i + 6);
          SliceAtConcat(s, "bytes=", g1, i);
          assert IsSliceAt(s, "-", j);
          SliceAtConcat(s, "bytes=" + g1, "-", i);
          assert IsSliceAt(s, g2, j + 1);
          SliceAtConcat(s, "bytes=" + g1 + "-", g2, i);
        }
        Some(Groups(g1, g2))
      else None
    else None
  }

  /** No other split of the text after "bytes=" into digits, '-' and more
      text can match: group 1 is always the whole digit run. */
  lemma GroupOneIsForced(s: string, i: nat, k: nat)
    requires IsSliceAt(s, "bytes=", i)
    requires i + 6 + k < |s| && s[i + 6 + k] == '-'
    requires forall j :: i + 6 <= j < i + 6 + k ==> IsDigit(s[j])
    ensures MatchAt(s, i).Some? && |MatchAt(s, i).value.first| == k
  {
    DigitRunLength(s, i + 6, k);
  }

  /** `String.prototype.match` without the g flag: the leftmost position at
      which the expression matches, from `from` onwards, with its groups. */
  function FirstMatch(s: string, from: nat): (m: Option<(nat, Groups)>)
    ensures m.None? <==> forall i :: from <= i <= |s| ==> MatchAt(s, i).None?
    ensures m.Some? ==> from <= m.value.0 <= |s| && MatchAt(s, m.value.0) == Some(m.value.1)
    ensures m.Some? ==> forall i :: from <= i < m.value.0 ==> MatchAt(s, i).None?
    decreases |s| - from
  {
    if from > |s| then None
    else
      match MatchAt(s, from)
      case Some(g) => Some((from, g))
      case None => FirstMatch(s, from + 1)
  }

  /** The bounds `getRange` returns; None is NaN */
  datatype RangeSpec =
    | Unparsable   // `match` returned null and reading group 1 throws
    | Bounds(start: Option<int>, end: Option<int>)

  /** `getRange`: the header's first match, with its two numbers resolved
      against the file size by Resolve. */
  function GetRange(text: string, total: nat): (r: RangeSpec)
    ensures r.Unparsable? <==> forall i :: 0 <= i <= |text| ==> MatchAt(text, i).None?
    ensures r.Bounds? ==> (r.start.Some? <==> r.end.Some?)
  {
    match FirstMatch(text, 0)
    case None => Unparsable
    case Some((_, g)) => Resolve(ParseInt(g.first), ParseInt(g.second), total)
  }

  /** A missing first number makes the second a suffix length, a missing
      second number means "to the last byte"; when both are missing both
      bounds stay NaN. */
  function Resolve(start: Option<nat>, end: Option<nat>, total: nat): (r: RangeSpec)
    ensures r.Bounds? && (r.start.Some? <==> r.end.Some?)
    ensures start.Some? ==> r.start == Some(start.value as int)
    ensures end.None? ==> r.end.None? || r.end == Some(total - 1)
    ensures start.None? && end.Some? ==> r == Bounds(Some(total - end.value), Some(total - 1))
    ensures start.Some? && end.Some? ==> r == Bounds(Some(start.value as int), Some(end.value as int))
    ensures start.Some? && end.None? ==> r == Bounds(Some(start.value as int), Some(total - 1))
    ensures start.None? && end.None? ==> r == Bounds(None, None)
  {
    if start.None? && end.Some? then Bounds(Some(total - end.value), Some(total - 1))
    else if start.Some? && end.None? then Bounds(Some(start.value), Some(total - 1))
    else Bounds(if start.Some? then Some(start.value as int) else None,
                if end.Some? then Some(end.value as int) else None)
  }

  /** A header that starts with "bytes=" and two digit runs is resolved from
      those runs */
  lemma GetRangeAtStart(g1: string, g2: string, rest: string, total: nat)
    requires AllDigits(g1) && AllDigits(g2)
    requires rest == [] || !IsDigit(rest[0])
    ensures GetRange("bytes=" + g1 + "-" + g2 + rest, total) == Resolve(ParseInt(g1), ParseInt(g2), total)
  {
    MatchAtStart(g1, g2, rest);
  }

  /** A header that starts with "bytes=" is matched at its first character */
  lemma MatchAtStart(g1: string, g2: string, rest: string)
    requires AllDigits(g1) && AllDigits(g2)
    requires rest == [] || !IsDigit(rest[0])
    ensures FirstMatch("bytes=" + g1 + "-" + g2 + rest, 0) == Some((0, Groups(g1, g2)))
  {
    var s := "bytes=" + g1 + "-" + g2 + rest;
    assert MatchAt(s, 0) == Some(Groups(g1, g2)) by {
      MatchAtZero(g1, g2, rest);
    }
  }

  lemma MatchAtZero(g1: string, g2: string, rest: string)
    requires AllDigits(g1) && AllDigits(g2)
    requires rest == [] || !IsDigit(rest[0])
    ensures MatchAt("bytes=" + g1 + "-" + g2 + rest, 0) == Some(Groups(g1, g2))
  {
    var s := "bytes=" + g1 + "-" + g2 + rest;
    var p1 := "bytes=";
    var q1 := "-" + g2 + rest;
    var p2 := "bytes=" + g1 + "-";
    assert s == p1 + g1 + q1;
    assert s == p2 + g2 + rest;
    assert IsSliceAt(s, "bytes=", 0) by {
      assert s[..6] == p1;
    }
    assert DigitRun(s, 6) == g1 by {
      DigitRunIs(p1, g1, q1);
    }
    assert s[6 + |g1|] == '-' by {
      assert s[6 + |g1|] == q1[0];
    }
    assert DigitRun(s, 7 + |g1|) == g2 by {
      DigitRunIs(p2, g2, rest);
    }
  }

  /** `bytes=A-B` gives (A, B) unchanged, whatever the file size; anything
      after B that is not a digit (a second range, say) is ignored. */
  lemma GetRangeClosed(a: nat, b: nat, rest: string, total: nat)
    requires rest == [] || !IsDigit(rest[0])
    ensures GetRange("bytes=" + Decimal(a) + "-" + Decimal(b) + rest, total) == Bounds(Some(a), Some(b))
  {
    GetRangeAtStart(Decimal(a), Decimal(b), rest, total);
    ParseIntOfDecimal(a, []);
    ParseIntOfDecimal(b, []);
    assert Decimal(a) + [] == Decimal(a);
    assert Decimal(b) + [] == Decimal(b);
  }

  /** `bytes=-N` gives the last N bytes: (total - N, total - 1) */
  lemma GetRangeSuffix(n: nat, rest: string, total: nat)
    requires rest == [] || !IsDigit(rest[0])
    ensures GetRange("bytes=-" + Decimal(n) + rest, total) == Bounds(Some(total - n), Some(total - 1))
  {
    var d := Decimal(n);
    assert "bytes=-" + d + rest == "bytes=" + [] + "-" + d + rest;
    GetRangeAtStart([], d, rest, total);
    ResolveSuffix(n, total);
  }

  lemma ResolveSuffix(n: nat, total: nat)
    ensures Resolve(ParseInt([]), ParseInt(Decimal(n)), total) == Bounds(Some(total - n), Some(total - 1))
  {
    ParseIntOfDecimal(n, []);
    assert Decimal(n) + [] == Decimal(n);
  }

  /** `bytes=A-` runs from A to the last byte: (A, total - 1) */
  lemma GetRangeOpen(a: nat, rest: string, total: nat)
    requires rest == [] || !IsDigit(rest[0])
    ensures GetRange("bytes=" + Decimal(a) + "-" + rest, total) == Bounds(Some(a), Some(total - 1))
  {
    assert "bytes=" + Decimal(a) + "-" + rest == "bytes=" + Decimal(a) + "-" + [] + rest;
    GetRangeAtStart(Decimal(a), [], rest, total);
    ParseIntOfDecimal(a, []);
    assert Decimal(a) + [] == Decimal(a);
  }

  /** `bytes=-` leaves both bounds NaN */
  lemma GetRangeNoNumbers(rest: string, total: nat)
    requires rest == [] || !IsDigit(rest[0])
    ensures GetRange("bytes=-" + rest, total) == Bounds(None, None)
  {
    assert "bytes=-" + rest == "bytes=" + [] + "-" + [] + rest;
    GetRangeAtStart([], [], rest, total);
  }

  /** A header that never contains "bytes=" cannot be parsed */
  lemma GetRangeWithoutUnit(text: string, total: nat)
    requires forall i :: 0 <= i <= |text| ==> !IsSliceAt(text, "bytes=", i)
    ensures GetRange(text, total).Unparsable?
  {
  }

  /** JavaScript's `a > b` on possibly-NaN numbers: false whenever either is
      NaN */
  predicate Greater(a: Option<int>, b: Option<int>) {
    a.Some? && b.Some? && a.value > b.value
  }

  /** What `rangeHandler` decides */
  datatype RangeDecision =
    | Malformed                                    // the header did not match; getRange throws
    | Unsatisfiable                                // 416
    | Satisfiable(start: Option<int>, end: Option<int>)   // 206

  /** `rangeHandler`: 416 when the start or the end lies beyond the file
      size, or the start lies beyond the end; 206 otherwise.  The end may
      equal the size, the start may be negative, and NaN bounds pass every
      test. */
  function RangeHandler(text: string, total: nat): (d: RangeDecision)
    ensures d.Malformed? <==> GetRange(text, total).Unparsable?
    ensures d.Unsatisfiable? ==>
      var r := GetRange(text, total);
      r.Bounds? && r.start.Some? && r.end.Some? &&
      (r.start.value > total || r.end.value > total || r.start.value > r.end.value)
    ensures d.Satisfiable? ==> GetRange(text, total) == Bounds(d.start, d.end)
    ensures d.Satisfiable? && d.start.Some? ==>
      d.end.Some? && d.start.value <= d.end.value <= total
  {
    match GetRange(text, total)
    case Unparsable => Malformed
    case Bounds(start, end) =>
      if Greater(start, Some(total)) || Greater(end, Some(total)) || Greater(start, end) then Unsatisfiable
      else Satisfiable(start, end)
  }

  /** For `bytes=A-B`: 206 with (A, B) exactly when A <= B <= size, else 416 */
  lemma ClosedRangeDecision(a: nat, b: nat, rest: string, total: nat)
    requires rest == [] || !IsDigit(rest[0])
    ensures RangeHandler("bytes=" + Decimal(a) + "-" + Decimal(b) + rest, total)
      == if a <= b <= total then Satisfiable(Some(a), Some(b)) else Unsatisfiable
  {
    GetRangeClosed(a, b, rest, total);
  }

  /** For `bytes=-N`: 206 for every N >= 1, even N > size, whose start is
      then negative; 416 only for N = 0 */
  lemma SuffixRangeDecision(n: nat, rest: string, total: nat)
    requires rest == [] || !IsDigit(rest[0])
    ensures RangeHandler("bytes=-" + Decimal(n) + rest, total)
      == if n == 0 then Unsatisfiable else Satisfiable(Some(total - n), Some(total - 1))
  {
    GetRangeSuffix(n, rest, total);
  }

  /** For `bytes=A-`: 206 up to the last byte exactly when A < size */
  lemma OpenRangeDecision(a: nat, rest: string, total: nat)
    requires rest == [] || !IsDigit(rest[0])
    ensures RangeHandler("bytes=" + Decimal(a) + "-" + rest, total)
      == if a < total then Satisfiable(Some(a), Some(total - 1)) else Unsatisfiable
  {
    GetRangeOpen(a, rest, total);
  }

  /** For `bytes=-`: the NaN bounds pass every comparison, so 206 */
  lemma EmptyRangeDecision(rest: string, total: nat)
    requires rest == [] || !IsDigit(rest[0])
    ensures RangeHandler("bytes=-" + rest, total) == Satisfiable(None, None)
  {
    GetRangeNoNumbers(rest, total);
  }

  /** A bound as a template literal renders it: the number, or "NaN" */
  function Show(b: Option<int>): string {
    match b
    case None => "NaN"
    case Some(v) => SignedDecimal(v)
  }

  /** The Content-Range value of a 206 */
  function ContentRange(start: Option<int>, end: Option<int>, total: nat): string {
    "bytes " + Show(start) + "-" + Show(end) + "/" + Decimal(total)
  }

  /** The Content-Range value of a 416 */
  function UnsatisfiedRange(total: nat): string {
    "bytes */" + Decimal(total)
  }

  /** The two Content-Range forms, read back from their text */
  datatype ContentRangeValue = RangeOf(first: nat, last: nat, complete: nat) | Unsatisfied(complete: nat)

  /** A non-empty run of digits, as a number */
  function Number(s: string): Option<nat> {
    if |s| > 0 && AllDigits(s) then Some(DigitsValue(s)) else None
  }

  /** Reads a Content-Range value back: "bytes A-B/S", or the unsatisfied
      form "bytes " followed by an asterisk, a slash and S, with decimal
      numbers; None for anything else. */
  function ParseContentRange(v: string): (r: Option<ContentRangeValue>)
  {
    if |v| >= 6 && v[..6] == "bytes " then
      var rest := v[6..];
      if |rest| >= 2 && rest[..2] == "*/" then
        match Number(rest[2..])
        case None => None
        case Some(s) => Some(Unsatisfied(s))
      else ParseSpan(rest)
    else None
  }

  /** Reads "A-B/S" */
  function ParseSpan(rest: string): Option<ContentRangeValue> {
    match IndexOf(rest, '-')
    case None => None
    case Some(k) => ParseTail(Number(rest[..k]), rest[k + 1..])
  }

  /** Reads "B/S" after a first number a */
  function ParseTail(a: Option<nat>, after: string): Option<ContentRangeValue> {
    match IndexOf(after, '/')
    case None => None
    case Some(m) =>
      match (a, Number(after[..m]), Number(after[m + 1..]))
      case (Some(x), Some(b), Some(s)) => Some(RangeOf(x, b, s))
      case _ => None
  }

  lemma ParseSpanAtDash(da: string, after: string)
    requires AllDigits(da)
    ensures ParseSpan(da + ['-'] + after) == ParseTail(Number(da), after)
  {
    assert '-' !in da by {
      forall i | 0 <= i < |da| ensures da[i] != '-' { assert IsDigit(da[i]); }
    }
    IndexOfAfter(da, '-', after);
  }

  lemma ParseTailAtSlash(x: nat, db: string, dt: string)
    requires |db| > 0 && |dt| > 0 && AllDigits(db) && AllDigits(dt)
    ensures ParseTail(Some(x), db + ['/'] + dt) == Some(RangeOf(x, DigitsValue(db), DigitsValue(dt)))
  {
    assert '/' !in db by {
      forall i | 0 <= i < |db| ensures db[i] != '/' { assert IsDigit(db[i]); }
    }
    IndexOfAfter(db, '/', dt);
  }

  lemma ParseSpanOfDigits(da: string, db: string, dt: string)
    requires |da| > 0 && |db| > 0 && |dt| > 0
    requires AllDigits(da) && AllDigits(db) && AllDigits(dt)
    ensures ParseSpan(da + "-" + db + "/" + dt)
      == Some(RangeOf(DigitsValue(da), DigitsValue(db), DigitsValue(dt)))
  {
    var after := db + ['/'] + dt;
    assert da + "-" + db + "/" + dt == da + ['-'] + after;
    ParseSpanAtDash(da, after);
    assert Number(da) == Some(DigitsValue(da));
    ParseTailAtSlash(DigitsValue(da), db, dt);
  }

  /** The 206 Content-Range of a range with non-negative bounds names
      exactly that range and the file size */
  lemma ContentRangeRoundTrip(a: nat, b: nat, total: nat)
    ensures ParseContentRange(ContentRange(Some(a), Some(b), total)) == Some(RangeOf(a, b, total))
  {
    var da, db, dt := Decimal(a), Decimal(b), Decimal(total);
    var rest := da + "-" + db + "/" + dt;
    var v := ContentRange(Some(a), Some(b), total);
    assert v == "bytes " + rest;
    assert v[..6] == "bytes " && v[6..] == rest;
    assert !(|rest| >= 2 && rest[..2] == "*/") by {
      assert rest[0] == da[0];
    }
    ParseSpanOfDigits(da, db, dt);
    DecimalRoundTrip(a);
    DecimalRoundTrip(b);
    DecimalRoundTrip(total);
  }

  /** The 416 Content-Range names the file size */
  lemma UnsatisfiedRangeRoundTrip(total: nat)
    ensures ParseContentRange(UnsatisfiedRange(total)) == Some(Unsatisfied(total))
  {
    var v := UnsatisfiedRange(total);
    assert v[..6] == "bytes ";
    assert v[6..][..2] == "*/";
    assert v[6..][2..] == Decimal(total);
    DecimalRoundTrip(total);
  }
}

=== FILE: router.dfy ===
/** Request routing (static-server.js, `routeHandler`, `respondNotFound`,
    `respondRedirect`): a missing path is a 404 page, a directory named
    without its trailing slash is redirected to the slashed URL, a directory
    named with it goes to the directory handler, and anything else is
    served as a file. */
module Router {
  import opened Text
  import opened Http

  const NotFoundHead := "<h1>Not Found</h1><p>The requested URL "
  const NotFoundTail := " was not found on this server.</p>"

  /** `respondNotFound`: a 404 HTML page that names the requested URL (the
      raw URL of the request, query string included) */
  function RespondNotFound(url: string): (r: Response)
    ensures r.status == 404 && r.encoding == Identity
    ensures r.headers == map["content-type" := "text/html"]
    ensures r.body.Html? && Contains(r.body.text, url)
  {
    ContainsMiddle(NotFoundHead, url, NotFoundTail);
    Response(404, map["content-type" := "text/html"], Html(NotFoundHead + url + NotFoundTail), Identity)
  }

  /** The page names the URL it was made for: different URLs give different
      pages. */
  lemma NotFoundNamesTheUrl(u: string, v: string)
    requires RespondNotFound(u) == RespondNotFound(v)
    ensures u == v
  {
    var a := NotFoundHead + u + NotFoundTail;
    var b := NotFoundHead + v + NotFoundTail;
    assert |u| == |v|;
    assert u == a[|NotFoundHead|..|NotFoundHead| + |u|];
    assert v == b[|NotFoundHead|..|NotFoundHead| + |v|];
  }

  /** The body of a redirect to `location` */
  function RedirectPage(location: string): string {
    "Redirecting to <a href='" + location + "'>" + location + "</a>"
  }

  /** `respondRedirect`: 301 to the request URL with '/' appended, with an
      HTML body linking to the same place */
  function RespondRedirect(url: string): (r: Response)
    ensures r.status == 301 && r.encoding == Identity
    ensures r.headers.Keys == {"location", "content-type"}
    ensures r.headers["location"] == url + "/" && r.headers["content-type"] == "text/html"
    ensures r.body.Html? && Contains(r.body.text, url + "/")
  {
    var location := url + "/";
    ContainsMiddle("Redirecting to <a href='", location, "'>" + location + "</a>");
    assert RedirectPage(location) == "Redirecting to <a href='" + location + ("'>" + location + "</a>");
    Response(301, map["location" := location, "content-type" := "text/html"], Html(RedirectPage(location)), Identity)
  }

  /** The redirect names the URL it was made for: different URLs give
      different redirects. */
  lemma RedirectNamesTheUrl(u: string, v: string)
    requires RespondRedirect(u) == RespondRedirect(v)
    ensures u == v
  {
    assert u + "/" == v + "/";
    assert u == (u + "/")[..|u|];
    assert v == (v + "/")[..|v|];
  }

  /** Where `routeHandler` sends a request: an answer it writes itself, the
      directory handler, or the file pipeline */
  datatype Route = Send(response: Response) | Directory | File

  /** `routeHandler`.  `s` is the result of `fs.stat` on the resolved path;
      `trailingSlash` is the verdict of `utils.hasTrailingSlash` on the
      URL's path name; `url` is the raw request URL. */
  function RouteHandler(s: StatResult, trailingSlash: bool, url: string): (d: Route)
    ensures (d.Send? && d.response.status == 404) <==> s.StatFailed?
    ensures d.Directory? <==> s.Found? && s.stat.isDirectory && trailingSlash
    ensures (d.Send? && d.response.status == 301) <==> s.Found? && s.stat.isDirectory && !trailingSlash
    ensures d.File? <==> s.Found? && !s.stat.isDirectory
    ensures d.Send? ==> d.response.status in {301, 404}
    ensures s.StatFailed? ==> d == Send(RespondNotFound(url))
    ensures s.Found? && s.stat.isDirectory && !trailingSlash ==> d == Send(RespondRedirect(url))
    ensures d.Send? && d.response.status == 404 ==>
      d.response.body.Html? && Contains(d.response.body.text, url)
    ensures d.Send? && d.response.status == 301 ==>
      "location" in d.response.headers && d.response.headers["location"] == url + "/"
  {
    match s
    case StatFailed(_) => Send(RespondNotFound(url))
    case Found(stat) =>
      if trailingSlash && stat.isDirectory then Directory
      else if stat.isDirectory then Send(RespondRedirect(url))
      else File
  }

  /** A directory named without its slash ("/docs") is redirected to the
      slashed form ("/docs/"), whatever else the URL holds. */
  lemma DirectoryWithoutSlashRedirects(stat: FileStat, url: string)
    requires stat.isDirectory
    ensures RouteHandler(Found(stat), false, url) == Send(RespondRedirect(url))
    ensures RespondRedirect(url).headers["location"] == url + "/"
  {
  }

  /** A file is served whatever the URL's last character */
  lemma FileIgnoresSlash(stat: FileStat, trailingSlash: bool, url: string)
    requires !stat.isDirectory
    ensures RouteHandler(Found(stat), trailingSlash, url) == File
  {
  }
}

=== FILE: text.dfy ===
/** Character classes, number formatting and parsing, and searching inside
    strings: the small pieces of JavaScript string behaviour that the server
    relies on (`Number.prototype.toString`, `parseInt`, `indexOf`,
    `lastIndexOf` and the regular-expression classes `[0-9]` and `\w`). */
module Text {
  import opened Wrappers

  predicate IsDigit(c: char) {
    '0' <= c <= '9'
  }

  /** The characters of the regular-expression class \w, which decide where
      a word boundary \b lies. */
  predicate IsWordChar(c: char) {
    ('a' <= c <= 'z') || ('A' <= c <= 'Z') || IsDigit(c) || c == '_'
  }

  predicate IsHexDigit(c: char) {
    IsDigit(c) || ('a' <= c <= 'f')
  }

  predicate AllDigits(s: string) {
    forall i :: 0 <= i < |s| ==> IsDigit(s[i])
  }

  predicate AllHexDigits(s: string) {
    forall i :: 0 <= i < |s| ==> IsHexDigit(s[i])
  }

  /** `needle` occurs somewhere inside `hay` */
  ghost predicate Contains(hay: string, needle: string) {
    exists i :: 0 <= i <= |hay| - |needle| && IsSliceAt(hay, needle, i)
  }

  predicate IsSliceAt(hay: string, needle: string, i: int) {
    0 <= i && i + |needle| <= |hay| && hay[i..i + |needle|] == needle
  }

  /** Two pieces found side by side form their concatenation */
  lemma SliceAtConcat(hay: string, a: string, b: string, i: int)
    requires IsSliceAt(hay, a, i) && IsSliceAt(hay, b, i + |a|)
    ensures IsSliceAt(hay, a + b, i)
  {
    assert hay[i..i + |a| + |b|] == hay[i..i + |a|] + hay[i + |a|..i + |a| + |b|];
  }

  lemma ContainsMiddle(p: string, needle: string, q: string)
    ensures Contains(p + needle + q, needle)
  {
    var hay := p + needle + q;
    assert hay[|p|..|p| + |needle|] == needle;
    assert IsSliceAt(hay, needle, |p|);
  }

  // ---------------------------------------------------------------------
  // Decimal numbers

  function DigitChar(d: nat): (c: char)
    requires d < 10
    ensures IsDigit(c)
  {
    ('0' as int + d) as char
  }

  function DigitValue(c: char): (d: nat)
    requires IsDigit(c)
    ensures d < 10 && DigitChar(d) == c
  {
    c as int - '0' as int
  }

  /** `n.toString()` for a non-negative integer: shortest decimal form */
  function Decimal(n: nat): (s: string)
    ensures |s| > 0 && AllDigits(s)
    ensures |s| == 1 || s[0] != '0'
    decreases n
  {
    if n < 10 then [DigitChar(n)] else Decimal(n / 10) + [DigitChar(n % 10)]
  }

  /** `i.toString()` for any integer: a minus sign before negative values */
  function SignedDecimal(i: int): (s: string)
    ensures |s| > 0
    ensures (i < 0 ==> s[0] == '-') && (i >= 0 ==> AllDigits(s))
  {
    if i < 0 then "-" + Decimal(-i) else Decimal(i)
  }

  /** The value of a string of decimal digits, most significant first */
  function DigitsValue(s: string): nat
    requires AllDigits(s)
  {
    if |s| == 0 then 0 else 10 * DigitsValue(s[..|s| - 1]) + DigitValue(s[|s| - 1])
  }

  lemma {:induction false} DecimalRoundTrip(n: nat)
    ensures DigitsValue(Decimal(n)) == n
    decreases n
  {
    if n >= 10 {
      var s := Decimal(n);
      assert s[..|s| - 1] == Decimal(n / 10);
      DecimalRoundTrip(n / 10);
    }
  }

  lemma DecimalInjective(a: nat, b: nat)
    requires Decimal(a) == Decimal(b)
    ensures a == b
  {
    DecimalRoundTrip(a);
    DecimalRoundTrip(b);
  }

  /** The longest run of decimal digits that starts at position i: what the
      greedy group `([0-9]*)` captures there. */
  function DigitRun(s: string, i: nat): (d: string)
    requires i <= |s|
    ensures AllDigits(d) && i + |d| <= |s| && d == s[i..i + |d|]
    ensures i + |d| == |s| || !IsDigit(s[i + |d|])
    decreases |s| - i
  {
    if i < |s| && IsDigit(s[i]) then [s[i]] + DigitRun(s, i + 1) else []
  }

  /** The digit run is determined by its two defining properties: a run of
      digits that is not followed by a digit. */
  lemma DigitRunIs(p: string, d: string, q: string)
    requires AllDigits(d)
    requires q == [] || !IsDigit(q[0])
    ensures DigitRun(p + d + q, |p|) == d
  {
    var s := p + d + q;
    forall j | |p| <= j < |p| + |d|
      ensures IsDigit(s[j])
    {
      assert s[j] == d[j - |p|];
    }
    if q != [] {
      assert s[|p| + |d|] == q[0];
    }
    DigitRunLength(s, |p|, |d|);
    assert DigitRun(s, |p|) == s[|p|..|p| + |d|] == d;
  }

  lemma {:induction false} DigitRunLength(s: string, i: nat, k: nat)
    requires i + k <= |s|
    requires forall j :: i <= j < i + k ==> IsDigit(s[j])
    requires i + k == |s| || !IsDigit(s[i + k])
    ensures |DigitRun(s, i)| == k
    decreases k
  {
    if k > 0 {
      DigitRunLength(s, i + 1, k - 1);
    }
  }

  /** `parseInt(s)` for the strings the server feeds it: the digits at the
      front of s read as a decimal number, or NaN (None) when s does not start
      with a digit.  The regular expression only ever hands it `[0-9]*`
      groups, so signs, white space and hexadecimal prefixes never occur. */
  function ParseInt(s: string): (r: Option<nat>)
    ensures r.Some? <==> |s| > 0 && IsDigit(s[0])
  {
    var d := DigitRun(s, 0);
    if d == [] then None else Some(DigitsValue(d))
  }

  lemma ParseIntOfDecimal(n: nat, rest: string)
    requires rest == [] || !IsDigit(rest[0])
    ensures ParseInt(Decimal(n) + rest) == Some(n)
  {
    DigitRunIs([], Decimal(n), rest);
    assert [] + Decimal(n) + rest == Decimal(n) + rest;
    DecimalRoundTrip(n);
  }

  // ---------------------------------------------------------------------
  // Hexadecimal numbers

  function HexChar(d: nat): (c: char)
    requires d < 16
    ensures IsHexDigit(c)
  {
    if d < 10 then ('0' as int + d) as char else ('a' as int + d - 10) as char
  }

  function HexDigitValue(c: char): (d: nat)
    requires IsHexDigit(c)
    ensures d < 16 && HexChar(d) == c
  {
    if IsDigit(c) then c as int - '0' as int else c as int - 'a' as int + 10
  }

  /** `n.toString(16)` for a non-negative integer: lower-case digits */
  function Hex(n: nat): (s: string)
    ensures |s| > 0 && AllHexDigits(s)
    ensures |s| == 1 || s[0] != '0'
    decreases n
  {
    if n < 16 then [HexChar(n)] else Hex(n / 16) + [HexChar(n % 16)]
  }

  /** `m.toString(16)` for any integer: a minus sign before negative values */
  function SignedHex(m: int): (s: string)
    ensures |s| > 0
    ensures (m < 0 ==> s[0] == '-') && (m >= 0 ==> AllHexDigits(s))
  {
    if m < 0 then "-" + Hex(-m) else Hex(m)
  }

  function HexValue(s: string): nat
    requires AllHexDigits(s)
  {
    if |s| == 0 then 0 else 16 * HexValue(s[..|s| - 1]) + HexDigitValue(s[|s| - 1])
  }

  lemma {:induction false} HexRoundTrip(n: nat)
    ensures HexValue(Hex(n)) == n
    decreases n
  {
    if n >= 16 {
      var s := Hex(n);
      assert s[..|s| - 1] == Hex(n / 16);
      HexRoundTrip(n / 16);
    }
  }

  /** Reads back what SignedHex writes; None when s is not of that shape */
  function ParseSignedHex(s: string): (r: Option<int>)
    ensures r.Some? ==> |s| > 0
  {
    if |s| > 1 && s[0] == '-' && AllHexDigits(s[1..]) then Some(0 - HexValue(s[1..]))
    else if |s| > 0 && AllHexDigits(s) then Some(HexValue(s))
    else None
  }

  lemma SignedHexRoundTrip(m: int)
    ensures ParseSignedHex(SignedHex(m)) == Some(m)
  {
    var s := SignedHex(m);
    if m < 0 {
      assert s[1..] == Hex(-m);
      assert |s| > 1 && s[0] == '-' && AllHexDigits(s[1..]);
      HexRoundTrip(-m);
    } else {
      assert s == Hex(m) && IsHexDigit(s[0]);
      HexRoundTrip(m);
    }
  }

  // ---------------------------------------------------------------------
  // Searching

  /** `s.indexOf(c)`, with None for -1 */
  function IndexOf(s: string, c: char): (r: Option<nat>)
    ensures r.None? <==> c !in s
    ensures r.Some? ==> r.value < |s| && s[r.value] == c && c !in s[..r.value]
  {
    if |s| == 0 then None
    else if s[0] == c then Some(0)
    else
      match IndexOf(s[1..], c)
      case None => None
      case Some(i) =>
        assert s[..i + 1] == [s[0]] + s[1..][..i];
        Some(i + 1)
  }

  /** `s.lastIndexOf(c)`, with None for -1 */
  function LastIndexOf(s: string, c: char): (r: Option<nat>)
    ensures r.None? <==> c !in s
    ensures r.Some? ==> r.value < |s| && s[r.value] == c && c !in s[r.value + 1..]
  {
    if |s| == 0 then None
    else if s[|s| - 1] == c then Some(|s| - 1)
    else
      match LastIndexOf(s[..|s| - 1], c)
      case None =>
        assert s == s[..|s| - 1] + [s[|s| - 1]];
        None
      case Some(i) =>
        assert s[i + 1..] == s[..|s| - 1][i + 1..] + [s[|s| - 1]];
        Some(i)
  }

  /** The first occurrence of c is found right after a prefix free of c */
  lemma IndexOfAfter(a: string, c: char, b: string)
    requires c !in a
    ensures IndexOf(a + [c] + b, c) == Some(|a|)
    ensures (a + [c] + b)[..|a|] == a && (a + [c] + b)[|a| + 1..] == b
  {
    var s := a + [c] + b;
    assert s[|a|] == c;
    assert s[..|a|] == a;
    assert s[|a| + 1..] == b;
  }

  /** The last occurrence of c is found right before a suffix free of c */
  lemma LastIndexOfBefore(a: string, c: char, b: string)
    requires c !in b
    ensures LastIndexOf(a + [c] + b, c) == Some(|a|)
  {
    var s := a + [c] + b;
    assert s[|a|] == c;
    assert s[|a| + 1..] == b;
  }

  /** JavaScript's \b at position i: the characters on either side (a
      missing character counts as a non-word character) differ in being
      word characters. */
  predicate IsBoundary(s: string, i: int) {
    (0 < i <= |s| && IsWordChar(s[i - 1])) != (0 <= i < |s| && IsWordChar(s[i]))
  }

  /** `\bw\b` matches at position i */
  predicate WordMatchAt(s: string, w: string, i: int) {
    IsSliceAt(s, w, i) && IsBoundary(s, i) && IsBoundary(s, i + |w|)
  }

  /** The regular-expression test `/\bw\b/`: a scan of the start positions
      from `from` onwards. */
  function SearchWord(s: string, w: string, from: nat): (found: bool)
    ensures found <==> exists i :: from <= i <= |s| && WordMatchAt(s, w, i)
    decreases |s| - from
  {
    if from > |s| then false
    else WordMatchAt(s, w, from) || SearchWord(s, w, from + 1)
  }

  predicate HasWord(s: string, w: string) {
    SearchWord(s, w, 0)
  }
}

=== FILE: wrappers.dfy ===
/** The optional-value type used throughout the model.  `None` stands for
    JavaScript's `undefined`, `null` and `NaN`, depending on the context. */
module Wrappers {

  datatype Option<+T> = None | Some(value: T) {

    /** Returns the value in Some, or the given default when None */
    function GetOr(default: T): T {
      match this
      case Some(v) => v
      case None => default
    }
  }
}
